=== FILE: README.md ===
# EZ-Engine core rules, modelled in Dafny

This project models six pieces of EZ-Engine as pure functions over immutable data, with their contracts proved:

- **Game objects** (`GameObjects`, over the world view in `Worlds`):
  - attaching and detaching components;
  - walking the child list;
  - message dispatch to the object, its ancestors and its subtree;
  - copy-assignment;
  - object names.
- **TypeScript code generation** (`TsCodeGen`, with string helpers in `Text`):
  - stripping and appending the auto-generated tail of a script file;
  - the enum file;
  - the enum import block.
- **TypeScript message binding** (`TsMessages`):
  - the parents-first list of message types;
  - the class text generated for each message and its properties;
  - the cached hash-to-type lookup;
  - the defaults used when a script object is converted to an engine message.
- **Texture conversion** (`TexConv`):
  - channel detection;
  - the order of the processing steps and the stop at the first failure;
  - the thumbnail mip choice;
  - the low-resolution gate.
- **Sample-game projectile** (`Projectiles`):
  - the time-to-live countdown;
  - the colliders it ignores;
  - ship damage and the harmless fragments;
  - the state after a hit.
- **Editor scene view** (`SceneViews`):
  - decoding a picking id into component and part;
  - dropping components that have been deleted;
  - the orthographic-mode view tag;
  - the render-target early return.

`Wrappers` holds `Option` and `EzResult`; `Seqs` holds sequence helpers.

Foreign code appears only through its results, which the model takes as parameters:

- component `Initialize`, `Deinitialize` and `OnMessage`;
- allocators, Duktape stack reads and reflection setters;
- image processing;
- float geometry and `rand()`;
- the render loop.

Where the source can misbehave, the model keeps the written behaviour as its own member and proves a corrected one next to it (see Findings).

## Model

| member | source | states |
|---|---|---|
| Worlds.QueueMessage | Code/Engine/Core/World/Implementation/GameObject.cpp:103-106 | The queue grows by exactly one entry, (message, routing, target). Nothing else in the world changes. |
| GameObjects.IndexOf | Code/Engine/Core/World/Implementation/GameObject.cpp:83-85 | Found exactly when the handle is listed. The index is that of the first occurrence. |
| GameObjects.RemoveAtSwap | Code/Engine/Core/World/Implementation/GameObject.cpp:96 | The list is one shorter. The old last entry fills the freed index and every other position is unchanged. |
| GameObjects.RemoveAtSwapPermutes | Code/Engine/Core/World/Implementation/GameObject.cpp:96 | Swap-removal leaves the multiset minus the removed entry, so nothing else is lost or gained. |
| GameObjects.AddComponent | Code/Engine/Core/World/Implementation/GameObject.cpp:60-79 | An unresolvable handle fails and changes nothing. A resolvable one gets this object as owner even when `Initialize` fails. The handle is appended last exactly on success, and the list is untouched on failure. |
| GameObjects.RemoveComponent | Code/Engine/Core/World/Implementation/GameObject.cpp:81-99 | An unlisted handle fails and changes nothing. A listed handle is swap-removed. If it resolves, its owner is cleared and the result is `Deinitialize`'s; otherwise the result is failure. |
| GameObjects.AddKeepsOwnership | Code/Engine/Core/World/Implementation/GameObject.cpp:60-79 | Attaching keeps the list free of duplicates, with every resolvable entry owned by the object. After success the handle is listed exactly once. |
| GameObjects.RemoveKeepsOwnership | Code/Engine/Core/World/Implementation/GameObject.cpp:81-99 | Detaching keeps the same ownership invariant, and the handle is no longer listed. |
| GameObjects.AddThenRemoveRestores | Code/Engine/Core/World/Implementation/GameObject.cpp:60-99 | Attaching a fresh component and detaching it again restores every object. It leaves the component unowned and reports `Deinitialize`'s result. |
| GameObjects.ChildIterationFollowsChildList | Code/Engine/Core/World/Implementation/GameObject.cpp:4-8 | `GetChildren` starts at the first child and `Next` steps through the sibling chain in order, then stops. |
| GameObjects.NextAsWrittenDereferencesNull | Code/Engine/Core/World/Implementation/GameObject.cpp:4-8 | The written `Next` clears its pointer before reading the next sibling through it. |
| GameObjects.LocalDeliveries | Code/Engine/Core/World/Implementation/GameObject.cpp:115-122 | Exactly the listed components that still resolve receive the message, in list order. |
| GameObjects.LocalDeliveriesAppend | Code/Engine/Core/World/Implementation/GameObject.cpp:115-122 | Delivering over two lists joined is delivering over the first, then over the second. |
| GameObjects.OnMessage | Code/Engine/Core/World/Implementation/GameObject.cpp:113-139 | The object's own deliveries come first. Without routing flags they are all there is, and every delivery goes to a live component. |
| GameObjects.SendMessage | Code/Engine/Core/World/Implementation/GameObject.cpp:101-111 | A queued message goes to the world queue with the object's own handle and delivers nothing now. An unqueued one is `OnMessage` and changes no state. |
| GameObjects.ParentRoutingClimbsChain | Code/Engine/Core/World/Implementation/GameObject.cpp:125-132 | With `ToParent`, the object and each ancestor in turn deliver to their own components, up to the root. |
| GameObjects.AncestorChainDistinct | Code/Engine/Core/World/Implementation/GameObject.cpp:125-132 | In a well-formed hierarchy the ancestor chain visits no object twice. |
| GameObjects.ChildRoutingReachesEveryChild | Code/Engine/Core/World/Implementation/GameObject.cpp:133-138 | With `ToChildren`, whatever a child would deliver is also delivered by its parent. |
| GameObjects.ChildRoutingDescends | Code/Engine/Core/World/Implementation/GameObject.cpp:113-138 | With `ToChildren` the trace is exactly the object's own deliveries, then each child's whole dispatch in sibling order. Each child appears once. |
| GameObjects.SiblingsDistinct | Code/Engine/Core/World/Implementation/GameObject.cpp:4-8 | A sibling walk that ends visits no object twice. |
| GameObjects.BothDirectionsRecurseForever | Code/Engine/Core/World/Implementation/GameObject.cpp:124-138 | With both flags, a parent's dispatch calls the child and the child's dispatch calls the parent back. |
| GameObjects.TwoObjectWorldRecursesForever | Code/Engine/Core/World/Implementation/GameObject.cpp:124-138 | A well-formed two-object hierarchy exists in which the mutual calls happen. |
| GameObjects.OnMessageBothWays | Code/Engine/Core/World/Implementation/GameObject.cpp:124-138 | The intended dispatch in both directions delivers the upward trace first, then the downward trace with the object's own components left out. The object's own components are therefore delivered once, and the downward trace starts with them. |
| GameObjects.BothWaysStartsWithOwnComponentsOnce | Code/Engine/Core/World/Implementation/GameObject.cpp:115-132 | In the corrected dispatch the object's own components come first. Each ancestor contributes once. |
| GameObjects.RewireOwners | Code/Engine/Core/World/Implementation/GameObject.cpp:32-40 | Exactly the listed resolvable components get the new owner. All other components are unchanged. |
| GameObjects.Assign | Code/Engine/Core/World/Implementation/GameObject.cpp:10-41 | The destination takes over the source's identity, links and component list, and keeps its world and transform slot. Level, index and transform payload are copied only when the transform records differ. The transform's back-reference and the listed components' owners point at the destination. |
| GameObjects.AssignTransfersOwnership | Code/Engine/Core/World/Implementation/GameObject.cpp:29-40 | If the source owned its components, the destination owns them after the copy. |
| GameObjects.SetNameThenGetName | Code/Engine/Core/World/Implementation/GameObject.cpp:43-51 | A name read back is the name just set. Objects with other handles keep their names. |
| Text.FindFirst | Code/EnginePlugins/TypeScriptPlugin/TsBinding/TsCodeGen.cpp:18 | Found exactly when the text contains the pattern. The index is the first occurrence. |
| Text.FindLastFrom | Code/EnginePlugins/TypeScriptPlugin/TsBinding/TsCodeGen.cpp:88 | The last occurrence at or before the start index, or none. |
| Text.Trim | Code/EnginePlugins/TypeScriptPlugin/TsBinding/TsCodeGen.cpp:27 | The result is a slice of the input with only spaces, tabs and line breaks cut off both ends. Neither end of the result is such a character. |
| Text.TrimIdempotent | Code/EnginePlugins/TypeScriptPlugin/TsBinding/TsCodeGen.cpp:27 | Trimming twice is trimming once. |
| Text.IntToString | Code/EnginePlugins/TypeScriptPlugin/TsBinding/TsCodeGen.cpp:86-88 | A sign exactly for negative values. The digits that follow have no leading zero and read back as the value. |
| Text.NatToString | Code/EnginePlugins/TypeScriptPlugin/TsBinding/TsMessages.cpp:91 | Digits only, no leading zero, reading back as the value. |
| TsCodeGen.KeptEnd | Code/EnginePlugins/TypeScriptPlugin/TsBinding/TsCodeGen.cpp:18-25 | The kept text ends where the first marker starts; no marker starts before that point. Without a marker the whole file is kept. |
| TsCodeGen.KeptHasNoMarker | Code/EnginePlugins/TypeScriptPlugin/TsBinding/TsCodeGen.cpp:18-25 | The kept text contains no marker. |
| TsCodeGen.RemoveAutoGeneratedCode | Code/EnginePlugins/TypeScriptPlugin/TsBinding/TsCodeGen.cpp:7-36 | The result ends in a blank line and its body is trimmed and marker-free. The body is a slice of the text before the first marker, with only whitespace dropped around it. |
| TsCodeGen.AppendToTextFile | Code/EnginePlugins/TypeScriptPlugin/TsBinding/TsCodeGen.cpp:38-58 | The original comes first, then a blank line, the marker line, the text and a final newline. If the original has no marker, the appended one is the first. |
| TsCodeGen.RemoveIsIdempotent | Code/EnginePlugins/TypeScriptPlugin/TsBinding/TsCodeGen.cpp:18-28 | Stripping an already stripped file changes nothing. |
| TsCodeGen.AppendThenRemove | Code/EnginePlugins/TypeScriptPlugin/TsBinding/TsCodeGen.cpp:7-58 | Appending generated text to a marker-free file and then stripping it gives back the trimmed original plus a blank line. |
| TsCodeGen.StripEzPrefix | Code/EnginePlugins/TypeScriptPlugin/TsBinding/TsCodeGen.cpp:76-77 | A name starting with `ez` in any letter case loses exactly those two characters. Any other name is unchanged. |
| TsCodeGen.StripEzPrefixRoundTrip | Code/EnginePlugins/TypeScriptPlugin/TsBinding/TsCodeGen.cpp:76-77 | `ez` in any case followed by a rest strips to exactly that rest. Only one prefix goes, so a rest starting with `ez` keeps it. |
| TsCodeGen.ConstantSuffix | Code/EnginePlugins/TypeScriptPlugin/TsBinding/TsCodeGen.cpp:88 | The constant's name is the text after a "::" and holds no further "::". |
| TsCodeGen.ConstantEntries | Code/EnginePlugins/TypeScriptPlugin/TsBinding/TsCodeGen.cpp:81-90 | Empty exactly when no property is a constant. Otherwise the entries start with a space and end with a comma. |
| TsCodeGen.ConstantEntry | Code/EnginePlugins/TypeScriptPlugin/TsBinding/TsCodeGen.cpp:83-88 | A property has an entry exactly when it is a constant. The entry of a constant is ` Suffix = value,`, where the suffix is the part of the name after its last `::` and the value is the constant's decimal text. |
| TsCodeGen.ConstantEntriesSnoc | Code/EnginePlugins/TypeScriptPlugin/TsBinding/TsCodeGen.cpp:81-90 | One more property appends exactly its own entry ` Suffix = value,` (or nothing): entries follow the property order. |
| TsCodeGen.EnumDeclaration | Code/EnginePlugins/TypeScriptPlugin/TsBinding/TsCodeGen.cpp:74-96 | `export enum Name {`, then the entries with the final comma dropped, then ` }`. With no entries only the brace pair is left. |
| TsCodeGen.GenerateEnumsFile | Code/EnginePlugins/TypeScriptPlugin/TsBinding/TsCodeGen.cpp:64-97 | The file starts with its header and is only the header when no enum is emitted. |
| TsCodeGen.EnumsFileGrowsInOrder | Code/EnginePlugins/TypeScriptPlugin/TsBinding/TsCodeGen.cpp:69-97 | One more required enum appends exactly its declaration (or nothing) at the end of the file. |
| TsCodeGen.InjectEnumImportExport | Code/EnginePlugins/TypeScriptPlugin/TsBinding/TsCodeGen.cpp:109-122 | The import of the enum file and one re-export line per enum are appended under the marker. |
| TsCodeGen.InjectThenRemove | Code/EnginePlugins/TypeScriptPlugin/TsBinding/TsCodeGen.cpp:109-122 | Stripping after injection restores the trimmed original. |
| TsMessages.Visit | Code/EnginePlugins/TypeScriptPlugin/TsBinding/TsMessages.cpp:48-63 | Visiting a type only appends, and only proper messages not seen before, without duplicates. It records everything it appends, and a proper message is recorded afterwards. |
| TsMessages.CreateMessageTypeList | Code/EnginePlugins/TypeScriptPlugin/TsBinding/TsMessages.cpp:65-75 | The list has no duplicates. It holds exactly the types derived from `ezMessage` other than `ezMessage` itself. |
| TsMessages.TypeListIsParentsFirst | Code/EnginePlugins/TypeScriptPlugin/TsBinding/TsMessages.cpp:48-75 | In an acyclic registry, every listed type's parent message comes before it. |
| TsMessages.PropertyLine | Code/EnginePlugins/TypeScriptPlugin/TsBinding/TsMessages.cpp:101-135 | Non-members and types without a script type write nothing and keep the default text. Otherwise the line is `name: type;` or `name: type = default;`. The default text is replaced only when the default converts. A colour default becomes exactly `new Color(r, g, b, a)` whenever the text it carries (its own conversion, else the previous text) is non-empty, and empty otherwise. |
| TsMessages.PropertyPassSnoc | Code/EnginePlugins/TypeScriptPlugin/TsBinding/TsMessages.cpp:101-136 | One more property appends exactly that property's line, computed from the default text left by the earlier ones. |
| TsMessages.PropertiesCodeSnoc | Code/EnginePlugins/TypeScriptPlugin/TsBinding/TsMessages.cpp:101-136 | One more property appends exactly its own line, or nothing when it is not emitted. |
| TsMessages.StaleDefaultIsReused | Code/EnginePlugins/TypeScriptPlugin/TsBinding/TsMessages.cpp:114-129 | A member whose default does not convert is written with the previous member's default. |
| TsMessages.GenerateMessageCode | Code/EnginePlugins/TypeScriptPlugin/TsBinding/TsMessages.cpp:82-94 | The class starts with the header for the type, its parent and its hash. It ends with `}` and a blank line, and between them is exactly the property code of the type. |
| TsMessages.ClassHeaderRoundTrip | Code/EnginePlugins/TypeScriptPlugin/TsBinding/TsMessages.cpp:89-91 | Name, parent name and hash can be read back from the header text. |
| TsMessages.MessageCodeNamesTypeAndHash | Code/EnginePlugins/TypeScriptPlugin/TsBinding/TsMessages.cpp:82-94 | The generated class names its type and parent and carries its hash. |
| TsMessages.GenerateAllMessagesCode | Code/EnginePlugins/TypeScriptPlugin/TsBinding/TsMessages.cpp:65-80 | Existing code is kept as a prefix. After it come exactly the classes of the parents-first type list. |
| TsMessages.ClassesCodeSnoc | Code/EnginePlugins/TypeScriptPlugin/TsBinding/TsMessages.cpp:76-79 | One more listed type appends exactly that type's class, so the classes follow the list order. |
| TsMessages.FindTypeByHash | Code/EnginePlugins/TypeScriptPlugin/TsBinding/TsMessages.cpp:204-211 | The first type in enumeration order with the hash, or none when no type has it. |
| TsMessages.CreateMessage | Code/EnginePlugins/TypeScriptPlugin/TsBinding/TsMessages.cpp:198-218 | The type is the first with the hash, and a type that is found is cached. A miss leaves the cache unchanged and earlier entries are kept. A message exists exactly when the type exists and can be allocated. |
| TsMessages.RepeatedLookupIsStable | Code/EnginePlugins/TypeScriptPlugin/TsBinding/TsMessages.cpp:200-212 | A second lookup of the same hash finds the same type and leaves the cache as it was. |
| TsMessages.ReadField | Code/EnginePlugins/TypeScriptPlugin/TsBinding/TsMessages.cpp:241-336 | A missing property, or one of another kind, reads as the kind's default (false, "", 0, zero). The value always has the member's kind. A property of the right kind is stored as read: it maps back to exactly the script value. |
| TsMessages.AssignProperties | Code/EnginePlugins/TypeScriptPlugin/TsBinding/TsMessages.cpp:233-344 | Exactly the member properties of a valid kind are assigned, under their own names. Each assignment is that property's read, so a missing script property assigns the default. |
| TsMessages.MessageFromParameter | Code/EnginePlugins/TypeScriptPlugin/TsBinding/TsMessages.cpp:220-347 | The message has the first type with the hash, which is cached. The writes are the property assignments of exactly that type, one entry per property. |
| TsMessages.MessageFromParameterAsWritten | Code/EnginePlugins/TypeScriptPlugin/TsBinding/TsMessages.cpp:224-249 | An unknown hash dereferences the null type. A known type that cannot be allocated writes into the null message when it has a member to write. |
| TsMessages.UnknownHashDereferencesNull | Code/EnginePlugins/TypeScriptPlugin/TsBinding/TsMessages.cpp:227-231 | A registry and a hash for which the written conversion dereferences null. |
| TsMessages.ConvertParameter | Code/EnginePlugins/TypeScriptPlugin/TsBinding/TsMessages.cpp:220-347 | Never dereferences null. The message is converted exactly when the type exists and can be allocated, and otherwise the cache stays valid. |
| TsMessages.ConvertParameterAgreesWhereDefined | Code/EnginePlugins/TypeScriptPlugin/TsBinding/TsMessages.cpp:220-347 | Wherever the written conversion is defined, the checked one gives the same result. |
| TexConv.DetectNumChannels | Code/Engine/Texture/TexConv/Implementation/Processor.cpp:80-102 | The count is one past the highest channel any mapping uses, at most 4. It fails exactly when no channel is used. |
| TexConv.DetectNumChannelsAgrees | Code/Engine/Texture/TexConv/Implementation/Processor.cpp:80-102 | The loop's count equals the declarative count, and success means 1 to 4 channels. |
| TexConv.SelectThumbnailMip | Code/Engine/Texture/TexConv/Implementation/Processor.cpp:122-133 | The first mip no larger than the target in either dimension, else the last mip, or 0 without mips. |
| TexConv.BestMipIsFirstFit | Code/Engine/Texture/TexConv/Implementation/Processor.cpp:122-133 | The value definition of the chosen mip satisfies the same first-fit-else-last characterisation. |
| TexConv.GenerateThumbnailOutput | Code/Engine/Texture/TexConv/Implementation/Processor.cpp:117-185 | A target of 0 succeeds and produces nothing. Otherwise the thumbnail comes from the first-fit mip and the status is that of the scaling and conversion. |
| TexConv.GenerateLowResOutput | Code/Engine/Texture/TexConv/Implementation/Processor.cpp:187-206 | Extraction happens exactly when the requested mip is non-zero and below the mip count. Otherwise the step succeeds; when it extracts, the status is the extraction's. |
| TexConv.RunSteps | Code/Engine/Texture/TexConv/Implementation/Processor.cpp:40-74 | The steps run are a prefix of the list, stopping at the first failure. Success means every step ran and succeeded. |
| TexConv.Process | Code/Engine/Texture/TexConv/Implementation/Processor.cpp:31-78 | A decal atlas runs only the atlas step. Any other output runs a prefix of the fixed fourteen-step order and stops at the first step that fails. Every step before the last one run succeeded, and a failure means the last step run failed. The run succeeds exactly when all fourteen steps ran and succeeded. |
| TexConv.NoChannelsStopsAtDetection | Code/Engine/Texture/TexConv/Implementation/Processor.cpp:40-41 | Without any used channel, processing fails at channel detection and runs nothing after it. |
| TexConv.OptionalOutputsCannotFail | Code/Engine/Texture/TexConv/Implementation/Processor.cpp:70-77 | With no thumbnail and no low-res output requested, and all image steps succeeding, processing succeeds. |
| Projectiles.Fragments | Projects/SampleApp_Game/ProjectileComponent.cpp:74-99 | 100 fragments, each a freshly constructed projectile (25 to live) that is harmless and owned by the hit ship's player. |
| Projectiles.CheckCollider | Projects/SampleApp_Game/ProjectileComponent.cpp:41-115 | Own-player and destroyed ships are skipped, as is any collider not hit while moving. A damaging ship hit sets exactly that ship's health to max(health - 100, 0), which lowers it, and adds one fan of fragments. Otherwise no ship changes. A ship hit sets the time to live to 0, and any other hit stops the projectile with 150 to live. |
| Projectiles.Update | Projects/SampleApp_Game/ProjectileComponent.cpp:18-33 | With time to live at or below 0 the owner is deleted and nothing else changes. Otherwise the time to live drops by one. A projectile at rest does nothing more. |
| Projectiles.RestingProjectileHitsNothing | Projects/SampleApp_Game/ProjectileComponent.cpp:58 | Once the velocity is (nearly) zero, the rest of the collider loop changes nothing. |
| Projectiles.CheckCollidersNeverHeals | Projects/SampleApp_Game/ProjectileComponent.cpp:60-62 | Ship health never rises and never goes below zero through a hit. Ship ids and players are kept. |
| Projectiles.CheckCollidersSplit | Projects/SampleApp_Game/ProjectileComponent.cpp:39-116 | The loop from one collider is the loop from any later collider, started at the frame reached there. |
| Projectiles.DamagingHitLowersHealth | Projects/SampleApp_Game/ProjectileComponent.cpp:58-62 | A damaging hit on a collider leaves its ship at most max(health - 100, 0) after the whole loop, strictly below its health before the hit. |
| Projectiles.CheckCollidersSpawnsHarmlessFans | Projects/SampleApp_Game/ProjectileComponent.cpp:74-99 | Spawned fragments come in whole fans of 100 and none of them does damage. |
| Projectiles.HarmlessProjectileChangesNoShip | Projects/SampleApp_Game/ProjectileComponent.cpp:60 | A projectile that does no damage changes no ship and spawns nothing. |
| Projectiles.CheckCollidersTimeToLive | Projects/SampleApp_Game/ProjectileComponent.cpp:104-114 | After the loop the time to live is the decremented value, 0, or 150. |
| Projectiles.UpdateOutcome | Projects/SampleApp_Game/ProjectileComponent.cpp:18-116 | A live projectile's update heals no ship and spawns only harmless fans. It leaves a time to live of one less, 0 or 150, and keeps the owning player. A harmless projectile leaves every ship alone. |
| Projectiles.OneShotDamagesTwoShips | Projects/SampleApp_Game/ProjectileComponent.cpp:39-116 | A ship hit does not end the loop: one damaging shot crossing two enemy ships damages both and spawns two fans. |
| SceneViews.ComponentId | Tools/EnginePluginScene/SceneView/SceneView.cpp:152 | The component id is below 2^24. |
| SceneViews.PartIndex | Tools/EnginePluginScene/SceneView/SceneView.cpp:152-153 | The part index is below 256, and shifting it back above the component id rebuilds the picking id. |
| SceneViews.PickingId | Tools/EnginePluginScene/SceneView/SceneView.cpp:152-153 | Encoding a part and a component and decoding gives both back. |
| SceneViews.PickObjectAt | Tools/EnginePluginScene/SceneView/SceneView.cpp:132-181 | Without a read-back or a matrix the result goes out unfilled. Otherwise the geometry and the other-guid are filled in. An object and part are reported only together with a valid component, whose part index comes from the high byte. |
| SceneViews.StaleComponentIsNotReported | Tools/EnginePluginScene/SceneView/SceneView.cpp:158-175 | A picked component that no longer exists gives an empty component guid and no object or part. |
| SceneViews.UnmappedComponentIsNotReported | Tools/EnginePluginScene/SceneView/SceneView.cpp:158-175 | In a world that holds nothing under the invalid handle, a picked guid missing from the component map gives an empty component guid and no object or part, the same as a deleted component. |
| SceneViews.LivePickReportsOwnerAndPart | Tools/EnginePluginScene/SceneView/SceneView.cpp:152-171 | A live component picked at a part reports that part and its owner's guid. |
| SceneViews.Redraw | Tools/EnginePluginScene/SceneView/SceneView.cpp:89-116 | `NotInOrthoMode` is excluded exactly in the two orthographic modes, and no other tag changes. The game state's views come first and the editor's own view is always added last. |
| SceneViews.RedrawTagsIdempotent | Tools/EnginePluginScene/SceneView/SceneView.cpp:94-102 | Redrawing twice with the same camera leaves the same tags as once. |
| SceneViews.SetupRenderTarget | Tools/EnginePluginScene/SceneView/SceneView.cpp:44-87 | An existing window of the same size means nothing happens. Otherwise the old window is removed and the new one added, and the view exists with a viewport of the new size. |
| SceneViews.SetupRenderTargetIdempotent | Tools/EnginePluginScene/SceneView/SceneView.cpp:48-51 | Setting up the same window and size again is a no-op. |
| SceneViews.SameSizeNewWindowIgnored | Tools/EnginePluginScene/SceneView/SceneView.cpp:48-51 | The early return compares sizes only, so a different window of the same size is ignored. |

## Left out

**Engine internals and foreign code**

- World internals are reduced to maps and a queue: the handle table's generations, queue draining, the `DeleteObject` cascade and name interning. Objects are addressed by storage position (`Ptr`).
- Component `Initialize`, `Deinitialize` and `OnMessage` are opaque: their results are parameters, and component delivery is recorded as a trace of handles.
- The engine's debug assertions are preconditions:
  - `AddComponent` requires the component not to be owned by this object already, and a dynamic component only on a dynamic object.
  - `operator=` requires the same world and components owned by the source.
- File reads and writes in the code generator are not modelled: each operation maps the file's text to the text written back. `GenerateEnumsFile`'s failed-open branch only logs.

**Omitted operations**

- `InjectMessageImportExport` and `GenerateMessagesFile` (`TsMessages.cpp` 9-46, 139-196) are not part of this model. They are file plumbing around the modelled generators, with a fixed import header.
- `TsType` and `GetTsName` (the mapping to script type names) are not part of this model. Script names and types are fields of the reflected records.
- `HandleViewMessage`, `CreateView`, `CreateEditorRenderPipeline`, `SetCamera` and the constructor and destructor of the scene view context are rendering setup and are left out.
- The mixed-reality game state, the procedural placement declarations, the LUT asset manager, the inspector window and the scene preferences are left out: they are platform plumbing, declarations or UI. One observation: `CanHandleThis` returns -1 when the holographic space is available, which contradicts its documentation; this is not modelled.

**Floating point, geometry and image data**

- `TexConv.GenerateThumbnailOutput`:
  - the float aspect-ratio sizing and the image scaling and conversion are left out; their status is one parameter;
  - only the chosen mip is modelled.
- The other image steps (loading, usage, formats, resolution, scaling, assembly, HDR, mipmaps, alpha, output) are foreign: their status is a parameter. `ExtractLowerMipChain` is the same.
- `Projectiles.Update`:
  - positions, the draw direction, bounding-sphere tests, the quaternion fan-out, `rand()` and controller vibration are left out;
  - the hit test of each collider is a parameter, gated on the velocity not being nearly zero;
  - fragment velocities are one parameter `scatter`. The k-th fragment of every fan has velocity `scatter(k)`, so all fans share it, while the source draws fresh `rand()` values for each fan.
- `Projectiles.Update` keeps ships in a map keyed by owner object. Colliders without a ship component are the objects missing from that map. Health arithmetic cannot overflow 32 bits because only ships with positive health are hit.
- `SceneViews.PickObjectAt`:
  - the picked normal, ray start and position are opaque tokens;
  - the `PickingPosition` write and the message send are left out.
  - `PickObjectAt` itself accepts any document context. Its conclusion about an unmapped guid holds only in a `SceneViews.WellFormedContext`, where the world holds nothing under the invalid handle, as `TryGetComponent` never resolves it.
- `TsMessages.PropertyLine`: float colour components are the text the engine's float formatter would write. The conversion of a default to text is a parameter of each property.

**Weaker contracts and narrower models**

- `TsMessages.ReadField`: the value is what Duktape's typed getters yield. A script value of another kind reads as the default; Duktape's own coercions are not modelled. Narrowing reads are foreign: 64-bit members are read through 32-bit getters.
- `TsMessages.MessageFromParameter` requires the hash to name an allocatable type; the written code dereferences null otherwise (see Findings). `MessageFromParameterAsWritten` and `ConvertParameter` cover all hashes.
- `TsMessages.AssignProperties` requires every member kind to be one the conversion handles. The others reach `EZ_ASSERT_NOT_IMPLEMENTED` in the source.
- `GameObjects.OnMessage` requires that `ToParent` and `ToChildren` are not both set: with both, the written dispatch never ends (see Findings).
- `GameObjects.OnMessage` walks the children with the corrected `Next`. As written (`GameObject.cpp` 4-8, 135), `++it` clears the iterator before reading the next sibling through it. So every `ToChildren` dispatch to an object with a child dereferences null after the first child (see Findings). The model's child trace is the intended one, not the written one.
- `TsCodeGen.StripEzPrefix`: `ezStringBuilder` is not part of this model. `TrimWordStart("ez")` is taken to remove one leading `ez`, compared without regard to case, and nothing when the name does not start with it.
- `TsCodeGen.ConstantEntries` and `TsCodeGen.EnumDeclaration` require every constant name to contain `::`. The source adds 2 to the result of `FindLastSubString` without checking it (`TsCodeGen.cpp` 88). For a name without `::` that result is null, and the model does not cover that case.
- `TexConv.Process` follows the step order only; the values the steps pass to each other (channel count, output format, resolution) are not modelled.
- Locking and concurrency are not modelled.

**Where the prose description and the code disagree, the model follows the code**

- A failed `Initialize` in `AddComponent` leaves the component's owner pointing at the object; there is no rollback.
- `RemoveAutoGeneratedCode` cuts at the first marker, not the last.

## Findings

| source | as written | input that shows it | evidently intended | confidence | as-written member | corrected member |
|---|---|---|---|---|---|---|
| Code/Engine/Core/World/Implementation/GameObject.cpp:4-8 | `Next` sets its object pointer to null and then reads the next sibling through it | any valid child iterator, e.g. the first child of an object with two children | read the current object's next sibling, then move to it | high; not executed | GameObjects.NextAsWrittenDereferencesNull | GameObjects.ChildIterationFollowsChildList |
| Code/Engine/Core/World/Implementation/GameObject.cpp:124-138 | with `ToParent` and `ToChildren` both set, the parent forwards the message to the child with the same routing, which forwards it back to the parent | a parent with one child and routing `ToParent \| ToChildren` | deliver up the ancestor chain and down the subtree, each object once (the source's own to-do note) | high; not executed | GameObjects.TwoObjectWorldRecursesForever | GameObjects.OnMessageBothWays |
| Code/EnginePlugins/TypeScriptPlugin/TsBinding/TsMessages.cpp:227-249 | the type found for the script's hash is used without a null check, and so is the message | a hash that no reflected type has (or a type whose allocator cannot allocate, with a member to set) | return no message when the type is unknown or cannot be allocated | medium; not executed | TsMessages.UnknownHashDereferencesNull | TsMessages.ConvertParameter |

=== FILE: game_object.dfy ===
/**
 * `ezGameObject` over the world model: component attach and detach, message
 * sending and dispatch, child iteration over the intrusive sibling list,
 * copy-assignment and naming. Component code (`Initialize`, `Deinitialize`,
 * `OnMessage`) is opaque: its status results arrive as parameters and a
 * delivery is recorded as the component handle it went to.
 */
module GameObjects {
  import opened Wrappers
  import opened Worlds
  import opened Seqs

  /** The world after an operation, with the status it returned. */
  datatype Outcome = Outcome(world: World, result: EzResult)

  // ---------------------------------------------------------------------------
  // Component list

  /**
   * The object at `p` is a consistent owner: its list has no duplicates and
   * every listed component that resolves names `p` as its owner.
   */
  predicate OwnsItsComponents(w: World, p: Ptr)
    requires p in w.objects
  {
    var list := w.objects[p].components;
    NoDuplicates(list)
    && forall c :: c in list && c in w.components ==> w.components[c].owner == Some(p)
  }

  /** `ezArray::IndexOf`: the first index holding `c`. */
  function IndexOf(s: seq<ComponentHandle>, c: ComponentHandle): (r: Option<nat>)
    ensures r.Some? <==> c in s
    ensures r.Some? ==> r.value < |s| && s[r.value] == c && c !in s[..r.value]
  {
    if s == [] then None
    else if s[0] == c then Some(0)
    else
      match IndexOf(s[1..], c)
      case None => None
      case Some(k) =>
        assert s[..k + 1] == [s[0]] + s[1..][..k];
        Some(k + 1)
  }

  /** `ezArray::RemoveAtSwap`: the last element takes the place of the removed one. */
  function RemoveAtSwap<T>(s: seq<T>, i: nat): (r: seq<T>)
    requires i < |s|
    ensures |r| == |s| - 1
    ensures i < |r| ==> r[i] == s[|s| - 1]
    ensures forall k :: 0 <= k < |r| && k != i ==> r[k] == s[k]
  {
    s[i := s[|s| - 1]][..|s| - 1]
  }

  /** Swap-removal keeps every other entry: the result is a permutation of the rest. */
  lemma RemoveAtSwapPermutes<T>(s: seq<T>, i: nat)
    requires i < |s|
    ensures multiset(RemoveAtSwap(s, i)) == multiset(s) - multiset{s[i]}
  {
    var last := |s| - 1;
    if i == last {
      assert s == s[..last] + [s[last]];
      assert RemoveAtSwap(s, i) == s[..last];
    } else {
      var r := RemoveAtSwap(s, i);
      assert s == s[..i] + [s[i]] + s[i + 1..last] + [s[last]];
      assert r == s[..i] + [s[last]] + s[i + 1..last];
    }
  }

  /**
   * `AddComponent`. `initialized` is what the component's `Initialize` returns.
   * The owner is set before `Initialize` runs and is not restored when it fails.
   */
  function AddComponent(w: World, self: Ptr, c: ComponentHandle, initialized: bool): (out: Outcome)
    requires self in w.objects
    requires c in w.components ==> w.components[c].owner != Some(self)
    requires c in w.components && initialized ==> w.objects[self].isDynamic || !w.components[c].isDynamic
    ensures c !in w.components ==> out == Outcome(w, Failure)
    ensures c in w.components ==> c in out.world.components && out.world.components[c].owner == Some(self)
    ensures c in w.components ==> out.world.components == w.components[c := out.world.components[c]]
    ensures out.result == Success <==> c in w.components && initialized
    ensures out.result == Success ==> out.world.objects == w.objects[self := w.objects[self].(components := w.objects[self].components + [c])]
    ensures out.result == Failure ==> out.world.objects == w.objects
    ensures out.world.(objects := w.objects, components := w.components) == w
  {
    if c in w.components then
      var owned := w.(components := w.components[c := w.components[c].(owner := Some(self))]);
      if initialized then
        var obj := w.objects[self];
        Outcome(owned.(objects := w.objects[self := obj.(components := obj.components + [c])]), Success)
      else
        Outcome(owned, Failure)
    else
      Outcome(w, Failure)
  }

  /**
   * `RemoveComponent`. `deinitialized` is what the component's `Deinitialize`
   * returns; it is consulted only when the handle still resolves.
   */
  function RemoveComponent(w: World, self: Ptr, c: ComponentHandle, deinitialized: EzResult): (out: Outcome)
    requires self in w.objects
    ensures c !in w.objects[self].components ==> out == Outcome(w, Failure)
    ensures c in w.objects[self].components ==>
              var list := w.objects[self].components;
              var i := IndexOf(list, c).value;
              out.world.objects == w.objects[self := w.objects[self].(components := RemoveAtSwap(list, i))]
    ensures c in w.objects[self].components && c in w.components ==>
              out.world.components == w.components[c := w.components[c].(owner := None)]
              && out.result == deinitialized
    ensures c in w.objects[self].components && c !in w.components ==>
              out.world.components == w.components && out.result == Failure
    ensures out.world.(objects := w.objects, components := w.components) == w
  {
    var obj := w.objects[self];
    match IndexOf(obj.components, c)
    case None => Outcome(w, Failure)
    case Some(i) =>
      var detached :=
        if c in w.components then w.(components := w.components[c := w.components[c].(owner := None)])
        else w;
      var result := if c in w.components then deinitialized else Failure;
      Outcome(detached.(objects := w.objects[self := obj.(components := RemoveAtSwap(obj.components, i))]), result)
  }

  /** A successful attach keeps the object a consistent owner, and a failed one leaves its list alone. */
  lemma AddKeepsOwnership(w: World, self: Ptr, c: ComponentHandle, initialized: bool)
    requires self in w.objects && OwnsItsComponents(w, self)
    requires c in w.components ==> w.components[c].owner != Some(self)
    requires c in w.components && initialized ==> w.objects[self].isDynamic || !w.components[c].isDynamic
    ensures self in AddComponent(w, self, c, initialized).world.objects
    ensures OwnsItsComponents(AddComponent(w, self, c, initialized).world, self)
    ensures AddComponent(w, self, c, initialized).result == Success ==>
              multiset(AddComponent(w, self, c, initialized).world.objects[self].components)[c] == 1
  {
    var out := AddComponent(w, self, c, initialized);
    var list := w.objects[self].components;
    if out.result == Success {
      assert c !in list;
      var list' := list + [c];
      assert out.world.objects[self].components == list';
      assert forall i :: 0 <= i < |list| ==> list'[i] == list[i];
      assert multiset(list)[c] == 0;
      assert multiset(list') == multiset(list) + multiset{c};
    }
  }

  /** Detaching a listed component keeps the object a consistent owner and drops the handle from the list. */
  lemma RemoveKeepsOwnership(w: World, self: Ptr, c: ComponentHandle, deinitialized: EzResult)
    requires self in w.objects && OwnsItsComponents(w, self)
    ensures self in RemoveComponent(w, self, c, deinitialized).world.objects
    ensures OwnsItsComponents(RemoveComponent(w, self, c, deinitialized).world, self)
    ensures c !in RemoveComponent(w, self, c, deinitialized).world.objects[self].components
  {
    var list := w.objects[self].components;
    if c in list {
      RemoveAtSwapOfDistinct(list, IndexOf(list, c).value);
    }
  }

  /** Swap-removal from a duplicate-free list drops exactly the removed entry and adds none. */
  lemma RemoveAtSwapOfDistinct<T>(list: seq<T>, i: nat)
    requires i < |list| && NoDuplicates(list)
    ensures NoDuplicates(RemoveAtSwap(list, i))
    ensures list[i] !in RemoveAtSwap(list, i)
    ensures forall x :: x in RemoveAtSwap(list, i) ==> x in list
  {
    var list' := RemoveAtSwap(list, i);
    RemoveAtSwapPermutes(list, i);
    assert multiset(list)[list[i]] == 1 by {
      MultisetCountOne(list, i);
    }
    assert list[i] !in multiset(list');
    forall a, b | 0 <= a < b < |list'| ensures list'[a] != list'[b] {
      var a0 := if a == i then |list| - 1 else a;
      var b0 := if b == i then |list| - 1 else b;
      assert list'[a] == list[a0] && list'[b] == list[b0];
    }
    forall x | x in list' ensures x in list {
      assert x in multiset(list');
    }
  }

  lemma MultisetCountOne<T>(s: seq<T>, i: nat)
    requires i < |s|
    requires forall k :: 0 <= k < |s| && k != i ==> s[k] != s[i]
    ensures multiset(s)[s[i]] == 1
  {
    assert s == s[..i] + [s[i]] + s[i + 1..];
    assert s[i] !in s[..i];
    assert s[i] !in s[i + 1..];
  }

  /**
   * Attaching a fresh component and detaching it again restores the list and
   * leaves the component unowned; the removal status is `Deinitialize`'s.
   */
  lemma {:induction false} AddThenRemoveRestores(w: World, self: Ptr, c: ComponentHandle, deinitialized: EzResult)
    requires self in w.objects && c in w.components
    requires c !in w.objects[self].components
    requires w.components[c].owner != Some(self)
    requires w.objects[self].isDynamic || !w.components[c].isDynamic
    ensures var added := AddComponent(w, self, c, true);
            var removed := RemoveComponent(added.world, self, c, deinitialized);
            && removed.result == deinitialized
            && removed.world.objects == w.objects
            && removed.world.components == w.components[c := w.components[c].(owner := None)]
  {
    var added := AddComponent(w, self, c, true);
    var list := w.objects[self].components;
    var list' := list + [c];
    assert added.world.objects[self].components == list';
    assert IndexOf(list', c) == Some(|list|) by {
      assert list'[|list|] == c;
      assert list'[..|list|] == list;
    }
    assert RemoveAtSwap(list', |list|) == list;
    assert w.objects[self := w.objects[self].(components := list)] == w.objects;
  }

  // ---------------------------------------------------------------------------
  // Hierarchy and child iteration

  /** `level(q)` sits strictly above or below or beside `level(p)` as the link from `p` demands. */
  predicate LinksRespectLevels(w: World, p: Ptr)
    requires p in w.objects
  {
    var o := w.objects[p];
    (TryGetObject(w, o.parent).Some? ==> w.objects[TryGetObject(w, o.parent).value].hierarchyLevel < o.hierarchyLevel)
    && (TryGetObject(w, o.firstChild).Some? ==> w.objects[TryGetObject(w, o.firstChild).value].hierarchyLevel > o.hierarchyLevel)
    && (TryGetObject(w, o.nextSibling).Some? ==> w.objects[TryGetObject(w, o.nextSibling).value].hierarchyLevel == o.hierarchyLevel)
  }

  /**
   * The objects reached from handle `h` by following `nextSibling`, or `None`
   * when the walk comes back to an object already in `seen` (a sibling cycle).
   */
  function Siblings(w: World, h: ObjectHandle, seen: set<Ptr>): (r: Option<seq<Ptr>>)
    ensures r.Some? ==> forall q :: q in r.value ==> q in w.objects && q !in seen
    decreases w.objects.Keys - seen
  {
    match TryGetObject(w, h)
    case None => Some([])
    case Some(p) =>
      if p in seen then None
      else
        match Siblings(w, w.objects[p].nextSibling, seen + {p})
        case None => None
        case Some(rest) => Some([p] + rest)
  }

  /** The children of `p` in sibling order, when its sibling list ends. */
  function ChildList(w: World, p: Ptr): Option<seq<Ptr>>
    requires p in w.objects
  {
    Siblings(w, w.objects[p].firstChild, {})
  }

  /**
   * The hierarchy the dispatch code relies on: cached levels agree with the
   * links (so parent chains end), and every sibling list ends.
   */
  predicate WellFormed(w: World) {
    (forall p :: p in w.objects ==> LinksRespectLevels(w, p))
    && (forall p :: p in w.objects ==> ChildList(w, p).Some?)
  }

  /** A sibling walk that ends visits each object once. */
  lemma {:induction false} SiblingsDistinct(w: World, h: ObjectHandle, seen: set<Ptr>)
    requires Siblings(w, h, seen).Some?
    ensures NoDuplicates(Siblings(w, h, seen).value)
    decreases w.objects.Keys - seen
  {
    match TryGetObject(w, h)
    case None =>
    case Some(p) =>
      var rest := Siblings(w, w.objects[p].nextSibling, seen + {p}).value;
      SiblingsDistinct(w, w.objects[p].nextSibling, seen + {p});
      NoDuplicatesAppend([p], rest);
  }

  /** Every object on a sibling walk has the level of the first one. */
  lemma {:induction false} SiblingsShareLevel(w: World, h: ObjectHandle, seen: set<Ptr>, level: nat)
    requires forall p :: p in w.objects ==> LinksRespectLevels(w, p)
    requires Siblings(w, h, seen).Some?
    requires TryGetObject(w, h).Some? ==> w.objects[TryGetObject(w, h).value].hierarchyLevel == level
    ensures forall q :: q in Siblings(w, h, seen).value ==> w.objects[q].hierarchyLevel == level
    decreases w.objects.Keys - seen
  {
    match TryGetObject(w, h)
    case None =>
    case Some(p) =>
      assert LinksRespectLevels(w, p);
      SiblingsShareLevel(w, w.objects[p].nextSibling, seen + {p}, level);
  }

  /** Children sit one or more levels below their parent. */
  lemma ChildrenAreDeeper(w: World, p: Ptr)
    requires WellFormed(w) && p in w.objects
    ensures ChildList(w, p).Some?
    ensures forall q :: q in ChildList(w, p).value ==> q in w.objects && w.objects[q].hierarchyLevel > w.objects[p].hierarchyLevel
  {
    var o := w.objects[p];
    assert LinksRespectLevels(w, p);
    match TryGetObject(w, o.firstChild)
    case None =>
    case Some(first) =>
      SiblingsShareLevel(w, o.firstChild, {}, w.objects[first].hierarchyLevel);
  }

  /** `ezGameObject::ChildIterator`: the current child, or null once past the end. */
  datatype ChildIterator = ChildIterator(current: Option<Ptr>) {
    predicate IsValid() {
      current.Some?
    }
  }

  /** `GetChildren`: an iterator at the first child. */
  function GetChildren(w: World, p: Ptr): ChildIterator
    requires p in w.objects
  {
    ChildIterator(TryGetObject(w, w.objects[p].firstChild))
  }

  /** `ChildIterator::Next` as evidently intended: move to the next sibling, or become invalid. */
  function Next(w: World, it: ChildIterator): ChildIterator
    requires it.IsValid() && it.current.value in w.objects
  {
    ChildIterator(TryGetObject(w, w.objects[it.current.value].nextSibling))
  }

  /**
   * Following `nextSibling` from handle `h` visits exactly the objects of `l`,
   * in order, and then resolves nothing.
   */
  predicate WalkVisits(w: World, h: ObjectHandle, l: seq<Ptr>)
    requires forall q :: q in l ==> q in w.objects
  {
    && TryGetObject(w, h) == (if l == [] then None else Some(l[0]))
    && forall k :: 0 <= k < |l| ==>
         TryGetObject(w, w.objects[l[k]].nextSibling) == (if k + 1 < |l| then Some(l[k + 1]) else None)
  }

  /**
   * Iterating from `GetChildren` with `Next` visits exactly the child list, in
   * order, and becomes invalid after the last child.
   */
  lemma ChildIterationFollowsChildList(w: World, p: Ptr)
    requires WellFormed(w) && p in w.objects
    ensures var children := ChildList(w, p).value;
            && GetChildren(w, p).current == (if children == [] then None else Some(children[0]))
            && forall k :: 0 <= k < |children| ==>
                 Next(w, ChildIterator(Some(children[k]))).current
                   == (if k + 1 < |children| then Some(children[k + 1]) else None)
  {
    assert ChildList(w, p).Some?;
    SiblingWalkSteps(w, w.objects[p].firstChild, {});
  }

  lemma {:induction false} SiblingWalkSteps(w: World, h: ObjectHandle, seen: set<Ptr>)
    requires Siblings(w, h, seen).Some?
    ensures WalkVisits(w, h, Siblings(w, h, seen).value)
    decreases w.objects.Keys - seen
  {
    match TryGetObject(w, h)
    case None =>
    case Some(p) =>
      var next := w.objects[p].nextSibling;
      SiblingWalkSteps(w, next, seen + {p});
      var rest := Siblings(w, next, seen + {p}).value;
      var l := [p] + rest;
      assert Siblings(w, h, seen) == Some(l);
      forall k | 0 <= k < |l|
        ensures TryGetObject(w, w.objects[l[k]].nextSibling) == (if k + 1 < |l| then Some(l[k + 1]) else None)
      {
        if k > 0 {
          assert l[k] == rest[k - 1];
          assert TryGetObject(w, w.objects[rest[k - 1]].nextSibling) == (if k < |rest| then Some(rest[k]) else None);
        } else {
          assert l[k] == p;
          assert TryGetObject(w, next) == (if rest == [] then None else Some(rest[0]));
        }
        if k + 1 < |l| {
          assert l[k + 1] == rest[k];
        }
      }
      assert WalkVisits(w, h, l);
  }

  /** What running `ChildIterator::Next` can end in. */
  datatype NextOutcome = NullDereference | Advanced(it: ChildIterator)

  /**
   * `ChildIterator::Next` as written: the current pointer is cleared first and
   * then dereferenced to reach the world and the next-sibling handle.
   */
  function NextAsWritten(w: World, it: ChildIterator): NextOutcome {
    var cleared := ChildIterator(None);
    match cleared.current
    case None => NullDereference
    case Some(p) =>
      if p in w.objects then Advanced(ChildIterator(TryGetObject(w, w.objects[p].nextSibling)))
      else NullDereference
  }

  /**
   * The written `Next` dereferences null on every call, even on a valid
   * iterator whose object has a next sibling, where the intended `Next`
   * advances to that sibling.
   */
  lemma NextAsWrittenDereferencesNull(w: World, it: ChildIterator)
    requires it.IsValid() && it.current.value in w.objects
    requires TryGetObject(w, w.objects[it.current.value].nextSibling).Some?
    ensures NextAsWritten(w, it) == NullDereference
    ensures Next(w, it).IsValid()
  {
  }

  // ---------------------------------------------------------------------------
  // Messages

  /** Dispatch is defined: the hierarchy is well formed and at most one propagation direction is set. */
  predicate CanDispatch(w: World, routing: MsgRouting) {
    WellFormed(w) && !(routing.toParent && routing.toChildren)
  }

  /** The listed components that resolve, in list order: one object's share of a dispatch. */
  function LocalDeliveries(w: World, list: seq<ComponentHandle>): (r: seq<ComponentHandle>)
    ensures |r| <= |list|
    ensures forall c :: c in r <==> c in list && c in w.components
    ensures (forall k :: 0 <= k < |list| ==> list[k] in w.components) ==> r == list
  {
    if list == [] then []
    else
      var rest := LocalDeliveries(w, list[1..]);
      assert list == [list[0]] + list[1..];
      if list[0] in w.components then [list[0]] + rest else rest
  }

  /** Delivering to two lists in turn is delivering to the joined list. */
  lemma {:induction false} LocalDeliveriesAppend(w: World, a: seq<ComponentHandle>, b: seq<ComponentHandle>)
    ensures LocalDeliveries(w, a + b) == LocalDeliveries(w, a) + LocalDeliveries(w, b)
  {
    if a != [] {
      assert (a + b)[1..] == a[1..] + b;
      LocalDeliveriesAppend(w, a[1..], b);
    } else {
      assert a + b == b;
    }
  }

  /** Objects at hierarchy level `level` or deeper. */
  function AtOrBelow(w: World, level: nat): set<Ptr> {
    set q | q in w.objects && w.objects[q].hierarchyLevel >= level
  }

  /** Objects strictly deeper than `level`. */
  function Below(w: World, level: nat): set<Ptr> {
    set q | q in w.objects && w.objects[q].hierarchyLevel > level
  }

  /**
   * `OnMessage` as a delivery trace: the object's own resolvable components in
   * list order, then (with `toParent`) the parent's dispatch, then (with
   * `toChildren`) each child's dispatch in sibling order. Stale handles are
   * skipped; nothing is de-duplicated.
   */
  function OnMessage(w: World, p: Ptr, routing: MsgRouting): (r: seq<ComponentHandle>)
    requires CanDispatch(w, routing) && p in w.objects
    ensures LocalDeliveries(w, w.objects[p].components) <= r
    ensures !routing.toParent && !routing.toChildren ==> r == LocalDeliveries(w, w.objects[p].components)
    ensures forall c :: c in r ==> c in w.components
    decreases (if routing.toParent then w.objects[p].hierarchyLevel else 0), AtOrBelow(w, w.objects[p].hierarchyLevel), 0, 0
  {
    var o := w.objects[p];
    var own := LocalDeliveries(w, o.components);
    var up :=
      if routing.toParent then
        match TryGetObject(w, o.parent)
        case None => []
        case Some(q) =>
          assert LinksRespectLevels(w, p);
          OnMessage(w, q, routing)
      else [];
    var down :=
      if routing.toChildren then
        ChildrenAreDeeper(w, p);
        assert p in AtOrBelow(w, o.hierarchyLevel) && p !in Below(w, o.hierarchyLevel);
        ChildrenDeliveries(w, ChildList(w, p).value, o.hierarchyLevel, routing)
      else [];
    own + up + down
  }

  /** The dispatches to a list of children, concatenated in list order. */
  function ChildrenDeliveries(w: World, children: seq<Ptr>, level: nat, routing: MsgRouting): (r: seq<ComponentHandle>)
    requires CanDispatch(w, routing) && routing.toChildren
    requires forall q :: q in children ==> q in w.objects && w.objects[q].hierarchyLevel > level
    ensures forall c :: c in r ==> c in w.components
    decreases 0, Below(w, level), 1, |children|
  {
    if children == [] then []
    else
      var q := children[0];
      assert AtOrBelow(w, w.objects[q].hierarchyLevel) <= Below(w, level);
      OnMessage(w, q, routing) + ChildrenDeliveries(w, children[1..], level, routing)
  }

  /** The delivery sequence of one message: what is dispatched now and the world afterwards. */
  datatype Dispatch = Dispatch(world: World, delivered: seq<ComponentHandle>)

  /**
   * `SendMessage`: a queued message is appended to the world's queue, tagged
   * with this object's handle, and reaches nobody now; otherwise it is
   * dispatched at once and the world is unchanged.
   */
  function SendMessage(w: World, self: Ptr, msg: Message, routing: MsgRouting): (d: Dispatch)
    requires self in w.objects
    requires !routing.queued ==> CanDispatch(w, routing)
    ensures routing.queued ==> d.delivered == []
    ensures routing.queued ==> d.world.queue == w.queue + [QueuedMessage(msg, routing, w.objects[self].internalId)]
    ensures routing.queued ==> d.world.(queue := w.queue) == w
    ensures !routing.queued ==> d.world == w && d.delivered == OnMessage(w, self, routing)
  {
    if routing.queued then Dispatch(QueueMessage(w, msg, routing, w.objects[self].internalId), [])
    else Dispatch(w, OnMessage(w, self, routing))
  }

  /** The object itself followed by its ancestors, nearest first. */
  function AncestorChain(w: World, p: Ptr): (r: seq<Ptr>)
    requires WellFormed(w) && p in w.objects
    ensures |r| > 0 && r[0] == p
    ensures forall q :: q in r ==> q in w.objects && w.objects[q].hierarchyLevel <= w.objects[p].hierarchyLevel
    decreases w.objects[p].hierarchyLevel
  {
    assert LinksRespectLevels(w, p);
    match TryGetObject(w, w.objects[p].parent)
    case None => [p]
    case Some(q) => [p] + AncestorChain(w, q)
  }

  /** The local deliveries of a list of objects, concatenated in list order. */
  function DeliveriesOver(w: World, objs: seq<Ptr>): seq<ComponentHandle>
    requires forall q :: q in objs ==> q in w.objects
  {
    if objs == [] then [] else LocalDeliveries(w, w.objects[objs[0]].components) + DeliveriesOver(w, objs[1..])
  }

  /** No object is on its own ancestor chain twice: parent routing reaches each ancestor once. */
  lemma {:induction false} AncestorChainDistinct(w: World, p: Ptr)
    requires WellFormed(w) && p in w.objects
    ensures NoDuplicates(AncestorChain(w, p))
    decreases w.objects[p].hierarchyLevel
  {
    assert LinksRespectLevels(w, p);
    match TryGetObject(w, w.objects[p].parent)
    case None =>
    case Some(q) =>
      AncestorChainDistinct(w, q);
      assert p !in AncestorChain(w, q);
      var chain := AncestorChain(w, p);
      forall i, j | 0 <= i < j < |chain| ensures chain[i] != chain[j] {
        if i == 0 {
          assert chain[j] in AncestorChain(w, q);
        } else {
          assert chain[i] == AncestorChain(w, q)[i - 1];
        }
      }
  }

  /** With parent routing, the trace is the local deliveries of the object and each ancestor, nearest first. */
  lemma {:induction false} ParentRoutingClimbsChain(w: World, p: Ptr, routing: MsgRouting)
    requires CanDispatch(w, routing) && p in w.objects
    requires routing.toParent
    ensures OnMessage(w, p, routing) == DeliveriesOver(w, AncestorChain(w, p))
    decreases w.objects[p].hierarchyLevel
  {
    assert LinksRespectLevels(w, p);
    var chain := AncestorChain(w, p);
    match TryGetObject(w, w.objects[p].parent)
    case None =>
      assert chain == [p];
      assert DeliveriesOver(w, chain) == LocalDeliveries(w, w.objects[p].components) + DeliveriesOver(w, []);
    case Some(q) =>
      ParentRoutingClimbsChain(w, q, routing);
      assert chain[1..] == AncestorChain(w, q);
  }

  /** With child routing, every component reached from a child is reached from the parent. */
  lemma ChildRoutingReachesEveryChild(w: World, p: Ptr, routing: MsgRouting)
    requires CanDispatch(w, routing) && p in w.objects
    requires routing.toChildren
    ensures ChildList(w, p).Some?
    ensures forall q, c :: q in ChildList(w, p).value && c in OnMessage(w, q, routing) ==> c in OnMessage(w, p, routing)
  {
    ChildrenAreDeeper(w, p);
    var children := ChildList(w, p).value;
    ChildrenDeliveriesContain(w, children, w.objects[p].hierarchyLevel, routing);
  }

  /** The dispatch to each listed child, one entry per child in list order. */
  function ChildDispatches(w: World, children: seq<Ptr>, routing: MsgRouting): seq<seq<ComponentHandle>>
    requires CanDispatch(w, routing) && forall q :: q in children ==> q in w.objects
  {
    seq(|children|, k requires 0 <= k < |children| => OnMessage(w, children[k], routing))
  }

  /** The children's deliveries are their own dispatches joined in list order. */
  lemma {:induction false} ChildrenDeliveriesFlatten(w: World, children: seq<Ptr>, level: nat, routing: MsgRouting)
    requires CanDispatch(w, routing) && routing.toChildren
    requires forall q :: q in children ==> q in w.objects && w.objects[q].hierarchyLevel > level
    ensures ChildrenDeliveries(w, children, level, routing) == Flatten(ChildDispatches(w, children, routing))
    decreases |children|
  {
    if children != [] {
      ChildrenDeliveriesFlatten(w, children[1..], level, routing);
      assert ChildDispatches(w, children, routing)[1..] == ChildDispatches(w, children[1..], routing);
    }
  }

  /**
   * With child routing, the trace is the object's own deliveries followed by
   * each child's whole dispatch, every child once, in sibling order.
   */
  lemma ChildRoutingDescends(w: World, p: Ptr, routing: MsgRouting)
    requires CanDispatch(w, routing) && p in w.objects
    requires routing.toChildren
    ensures ChildList(w, p).Some? && NoDuplicates(ChildList(w, p).value)
    ensures forall q :: q in ChildList(w, p).value ==> q in w.objects
    ensures OnMessage(w, p, routing)
         == LocalDeliveries(w, w.objects[p].components) + Flatten(ChildDispatches(w, ChildList(w, p).value, routing))
  {
    ChildrenAreDeeper(w, p);
    SiblingsDistinct(w, w.objects[p].firstChild, {});
    ChildrenDeliveriesFlatten(w, ChildList(w, p).value, w.objects[p].hierarchyLevel, routing);
  }

  lemma {:induction false} ChildrenDeliveriesContain(w: World, children: seq<Ptr>, level: nat, routing: MsgRouting)
    requires CanDispatch(w, routing) && routing.toChildren
    requires forall q :: q in children ==> q in w.objects && w.objects[q].hierarchyLevel > level
    ensures forall q, c :: q in children && c in OnMessage(w, q, routing) ==> c in ChildrenDeliveries(w, children, level, routing)
    decreases |children|
  {
    if children != [] {
      ChildrenDeliveriesContain(w, children[1..], level, routing);
      forall q, c | q in children && c in OnMessage(w, q, routing)
        ensures c in ChildrenDeliveries(w, children, level, routing)
      {
        if q != children[0] {
          assert q in children[1..];
        }
      }
    }
  }

  // ---------------------------------------------------------------------------
  // Both propagation directions at once

  /** The objects `OnMessage` at `p` calls itself on next, in call order. */
  function DispatchCalls(w: World, p: Ptr, routing: MsgRouting): seq<Ptr>
    requires p in w.objects
  {
    var o := w.objects[p];
    (if routing.toParent && TryGetObject(w, o.parent).Some? then [TryGetObject(w, o.parent).value] else [])
    + (if routing.toChildren then ChildList(w, p).GetOr([]) else [])
  }

  /**
   * With both `toParent` and `toChildren` set, a parent dispatches to its child
   * and the child dispatches back to the parent with the same routing, so the
   * written recursion never ends.
   */
  lemma BothDirectionsRecurseForever(w: World, parent: Ptr, child: Ptr, routing: MsgRouting)
    requires parent in w.objects && child in w.objects
    requires routing.toParent && routing.toChildren
    requires ChildList(w, parent).Some? && child in ChildList(w, parent).value
    requires TryGetObject(w, w.objects[child].parent) == Some(parent)
    ensures child in DispatchCalls(w, parent, routing)
    ensures parent in DispatchCalls(w, child, routing)
  {
  }

  /** A two-object hierarchy: object 0 is the parent of object 1. */
  function TwoObjectWorld(): World {
    var hp := ObjectHandle(0, 0);
    var hc := ObjectHandle(1, 0);
    var none := ObjectHandle(2, 0);
    var parent := GameObject(0, hp, true, 0, none, hc, none, 0, 0, 0, []);
    var child := GameObject(0, hc, true, 1, hp, none, none, 1, 1, 1, []);
    World(map[hp := 0, hc := 1], map[0 := parent, 1 := child], map[], map[], [], map[])
  }

  /** The configuration that makes the written dispatch recurse forever exists. */
  lemma TwoObjectWorldRecursesForever()
    ensures WellFormed(TwoObjectWorld())
    ensures var w := TwoObjectWorld();
            var both := MsgRouting(false, true, true);
            1 in DispatchCalls(w, 0, both) && 0 in DispatchCalls(w, 1, both)
  {
    var w := TwoObjectWorld();
    assert TryGetObject(w, ObjectHandle(2, 0)) == None;
    assert TryGetObject(w, ObjectHandle(1, 0)) == Some(1);
    assert TryGetObject(w, ObjectHandle(0, 0)) == Some(0);
    var empty: set<Ptr> := {};
    assert empty + {1} == {1};
    assert w.objects[1].nextSibling == ObjectHandle(2, 0);
    assert Siblings(w, ObjectHandle(2, 0), {1}) == Some([]);
    assert [1] + [] == [1];
    assert Siblings(w, ObjectHandle(1, 0), empty) == Some([1]);
    assert Siblings(w, ObjectHandle(2, 0), {}) == Some([]);
    assert ChildList(w, 0) == Some([1]);
    assert ChildList(w, 1) == Some([]);
    assert LinksRespectLevels(w, 0) && LinksRespectLevels(w, 1);
  }

  /**
   * Dispatch with both directions as evidently intended: the object's own
   * components, then up the ancestor chain, then down the subtree, each
   * direction continuing with that direction alone.
   */
  function OnMessageBothWays(w: World, p: Ptr, routing: MsgRouting): (r: seq<ComponentHandle>)
    requires WellFormed(w) && p in w.objects
    ensures var up := routing.(toChildren := false);
            var down := routing.(toParent := false);
            && OnMessage(w, p, up) <= r
            && LocalDeliveries(w, w.objects[p].components) <= OnMessage(w, p, down)
            && r == OnMessage(w, p, up) + OnMessage(w, p, down)[|LocalDeliveries(w, w.objects[p].components)|..]
            && (forall c :: c in r <==> c in OnMessage(w, p, up) || c in OnMessage(w, p, down))
  {
    var up := routing.(toChildren := false);
    var down := routing.(toParent := false);
    var level := w.objects[p].hierarchyLevel;
    if !routing.toChildren then OnMessage(w, p, up)
    else
      ChildrenAreDeeper(w, p);
      var own := LocalDeliveries(w, w.objects[p].components);
      var sub := ChildrenDeliveries(w, ChildList(w, p).value, level, down);
      assert OnMessage(w, p, down) == own + sub;
      OnMessage(w, p, up) + sub
  }

  /** The corrected dispatch reaches each ancestor once and delivers the object's own components first. */
  lemma BothWaysStartsWithOwnComponentsOnce(w: World, p: Ptr, routing: MsgRouting)
    requires WellFormed(w) && p in w.objects && routing.toParent
    ensures LocalDeliveries(w, w.objects[p].components) <= OnMessageBothWays(w, p, routing)
    ensures NoDuplicates(AncestorChain(w, p))
    ensures OnMessage(w, p, routing.(toChildren := false)) == DeliveriesOver(w, AncestorChain(w, p))
  {
    AncestorChainDistinct(w, p);
    ParentRoutingClimbsChain(w, p, routing.(toChildren := false));
  }

  // ---------------------------------------------------------------------------
  // Copy-assignment and names

  /** Listed components that resolve appear once, so each is rewired once. */
  predicate ResolvableDistinct(w: World, list: seq<ComponentHandle>) {
    forall i, j :: 0 <= i < j < |list| && list[i] in w.components ==> list[i] != list[j]
  }

  /** Every listed component that resolves points its owner at `to`; other components are untouched. */
  function RewireOwners(comps: map<ComponentHandle, Component>, list: seq<ComponentHandle>, to: Ptr): (r: map<ComponentHandle, Component>)
    ensures r.Keys == comps.Keys
    ensures forall c :: c in comps && c in list ==> r[c] == comps[c].(owner := Some(to))
    ensures forall c :: c in comps && c !in list ==> r[c] == comps[c]
  {
    map c | c in comps :: if c in list then comps[c].(owner := Some(to)) else comps[c]
  }

  /**
   * `operator=`: the destination takes the source's identity, flags, links and
   * component list; it takes the hierarchy level, transform index and payload
   * only when the two use different transformation records; its record points
   * back at it; and every resolvable component is re-owned by it.
   */
  function Assign(w: World, dst: Ptr, src: Ptr): (w': World)
    requires dst in w.objects && src in w.objects
    requires w.objects[dst].worldId == w.objects[src].worldId
    requires w.objects[dst].transform in w.transforms && w.objects[src].transform in w.transforms
    requires forall c :: c in w.objects[src].components && c in w.components ==> w.components[c].owner == Some(src)
    requires dst != src ==> ResolvableDistinct(w, w.objects[src].components)
    ensures dst in w'.objects && w'.objects.Keys == w.objects.Keys
    ensures w'.transforms.Keys == w.transforms.Keys && w'.components.Keys == w.components.Keys
    ensures forall q :: q in w.objects && q != dst ==> w'.objects[q] == w.objects[q]
    ensures var s, d, d' := w.objects[src], w.objects[dst], w'.objects[dst];
            && d'.internalId == s.internalId && d'.isDynamic == s.isDynamic && d'.persistentId == s.persistentId
            && d'.parent == s.parent && d'.firstChild == s.firstChild && d'.nextSibling == s.nextSibling
            && d'.components == s.components
            && d'.worldId == d.worldId && d'.transform == d.transform
            && (d.transform != s.transform ==>
                  d'.hierarchyLevel == s.hierarchyLevel && d'.transformIndex == s.transformIndex
                  && w'.transforms[d.transform].payload == w.transforms[s.transform].payload)
            && (d.transform == s.transform ==>
                  d'.hierarchyLevel == d.hierarchyLevel && d'.transformIndex == d.transformIndex
                  && w'.transforms[d.transform].payload == w.transforms[d.transform].payload)
    ensures w'.transforms == w.transforms[w.objects[dst].transform := w'.transforms[w.objects[dst].transform]]
    ensures w'.transforms[w.objects[dst].transform].objectPtr == Some(dst)
    ensures forall c :: c in w.objects[src].components && c in w.components ==> w'.components[c].owner == Some(dst)
    ensures forall c :: c in w.components && c !in w.objects[src].components ==> w'.components[c] == w.components[c]
    ensures w'.(objects := w.objects, transforms := w.transforms, components := w.components) == w
  {
    var s := w.objects[src];
    var d := w.objects[dst];
    var copyTransform := d.transform != s.transform;
    var d' := d.(internalId := s.internalId, isDynamic := s.isDynamic, persistentId := s.persistentId,
                 parent := s.parent, firstChild := s.firstChild, nextSibling := s.nextSibling,
                 hierarchyLevel := if copyTransform then s.hierarchyLevel else d.hierarchyLevel,
                 transformIndex := if copyTransform then s.transformIndex else d.transformIndex,
                 components := s.components);
    var record := if copyTransform then w.transforms[s.transform] else w.transforms[d.transform];
    w.(objects := w.objects[dst := d'],
       transforms := w.transforms[d.transform := record.(objectPtr := Some(dst))],
       components := RewireOwners(w.components, s.components, dst))
  }

  /** After assignment the destination owns the source's components exactly as the source did. */
  lemma AssignTransfersOwnership(w: World, dst: Ptr, src: Ptr)
    requires dst in w.objects && src in w.objects
    requires w.objects[dst].worldId == w.objects[src].worldId
    requires w.objects[dst].transform in w.transforms && w.objects[src].transform in w.transforms
    requires OwnsItsComponents(w, src)
    ensures dst in Assign(w, dst, src).objects
    ensures OwnsItsComponents(Assign(w, dst, src), dst)
  {
  }

  /** `SetName`: record a name under this object's handle. */
  function SetName(w: World, self: Ptr, name: string): (w': World)
    requires self in w.objects
    ensures w'.objects == w.objects
  {
    SetObjectName(w, w.objects[self].internalId, name)
  }

  /** `GetName`: the name recorded under this object's handle. */
  function GetName(w: World, self: Ptr): Option<string>
    requires self in w.objects
  {
    GetObjectName(w, w.objects[self].internalId)
  }

  /** A name read back is the name last set; objects with other handles keep theirs. */
  lemma SetNameThenGetName(w: World, self: Ptr, other: Ptr, name: string)
    requires self in w.objects && other in w.objects
    ensures GetName(SetName(w, self, name), self) == Some(name)
    ensures w.objects[other].internalId != w.objects[self].internalId ==>
              GetName(SetName(w, self, name), other) == GetName(w, other)
  {
  }
}

=== FILE: projectile.dfy ===
/**
 * One `Update` of the sample game's projectile component: the time-to-live
 * countdown, the colliders it skips, the damage it deals to ships and the
 * state it is left in after a hit. Vectors are floating point and are kept
 * as opaque tokens; whether the projectile's path crosses a collider's
 * bounding sphere, and the direction of each fragment, are inputs.
 */
module Projectiles {
  import opened Wrappers

  /** Identity of a game object in the level. */
  type ObjectId = nat

  /**
   * A velocity vector: exactly zero, or some non-zero vector. `tiny` records
   * whether every component is within 0.001 of zero, the tolerance the hit
   * test uses.
   */
  datatype Velocity = Zero | Moving(token: nat, tiny: bool)

  predicate NearlyZero(v: Velocity) {
    v.Zero? || v.tiny
  }

  /** The fields of `ProjectileComponent` that the update reads or writes. */
  datatype Projectile = Projectile(velocity: Velocity, timeToLive: int, belongsToPlayer: int, doesDamage: bool)

  /** A newly constructed projectile component: at rest, 25 updates to live, no owner player, harmless. */
  const NewProjectile := Projectile(Zero, 25, -1, false)

  /** The fields of `ShipComponent` that a projectile reads or writes. */
  datatype Ship = Ship(playerIndex: int, health: int)

  /** How many fragments a damaging ship hit scatters. */
  const MaxParticles: nat := 100

  /** Health a damaging hit removes. */
  const HitDamage: int := 100

  /** The state the update leaves behind. */
  datatype Frame = Frame(
    projectile: Projectile,
    ships: map<ObjectId, Ship>,
    deleted: bool,
    moved: bool,
    spawned: seq<Projectile>)

  /** The fragments of a damaging hit on a ship of `player`: harmless projectiles of that player, moving as `scatter` says. */
  function Fragments(player: int, scatter: nat -> Velocity): (r: seq<Projectile>)
    ensures |r| == MaxParticles
    ensures forall k :: 0 <= k < |r| ==> r[k] == NewProjectile.(velocity := scatter(k), belongsToPlayer := player)
  {
    seq(MaxParticles, k requires 0 <= k => NewProjectile.(velocity := scatter(k), belongsToPlayer := player))
  }

  /** The collider's owner is a ship the projectile ignores: its own player's ship, or one already destroyed. */
  predicate Skipped(p: Projectile, ships: map<ObjectId, Ship>, owner: ObjectId) {
    owner in ships && (ships[owner].playerIndex == p.belongsToPlayer || ships[owner].health <= 0)
  }

  /** The projectile's move this update hits the collider: it is not at rest and the geometry says so. */
  predicate Hits(p: Projectile, hit: bool) {
    !NearlyZero(p.velocity) && hit
  }

  /** A hit that damages: the collider is a ship and the projectile does damage. */
  predicate DamagingHit(p: Projectile, ships: map<ObjectId, Ship>, owner: ObjectId) {
    owner in ships && p.doesDamage
  }

  /** The collider is not skipped, is hit, and the hit damages. */
  predicate ScattersFragments(st: Frame, owner: ObjectId, hit: bool) {
    !Skipped(st.projectile, st.ships, owner) && Hits(st.projectile, hit) && DamagingHit(st.projectile, st.ships, owner)
  }

  function Max(a: int, b: int): int {
    if a < b then b else a
  }

  /** The effect of one collider on the frame. */
  function CheckCollider(st: Frame, owner: ObjectId, hit: bool, scatter: nat -> Velocity): (r: Frame)
    ensures Skipped(st.projectile, st.ships, owner) || !Hits(st.projectile, hit) ==> r == st
    ensures r.deleted == st.deleted && r.moved == st.moved
    ensures r.projectile.belongsToPlayer == st.projectile.belongsToPlayer
    ensures r.projectile.doesDamage == st.projectile.doesDamage
    ensures r.ships.Keys == st.ships.Keys
    ensures forall o :: o in st.ships && o != owner ==> r.ships[o] == st.ships[o]
    ensures owner in st.ships && r.ships[owner] != st.ships[owner] ==>
              DamagingHit(st.projectile, st.ships, owner)
              && r.ships[owner] == st.ships[owner].(health := Max(st.ships[owner].health - HitDamage, 0))
    ensures !Skipped(st.projectile, st.ships, owner) && Hits(st.projectile, hit) ==>
              (owner in st.ships ==> r.projectile == st.projectile.(timeToLive := 0))
              && (owner !in st.ships ==> r.projectile == st.projectile.(velocity := Zero, timeToLive := 150))
    ensures ScattersFragments(st, owner, hit) ==>
              r.ships == st.ships[owner := st.ships[owner].(health := Max(st.ships[owner].health - HitDamage, 0))]
              && r.ships[owner].health < st.ships[owner].health
    ensures !ScattersFragments(st, owner, hit) ==> r.ships == st.ships
    ensures ScattersFragments(st, owner, hit) ==> r.spawned == st.spawned + Fragments(st.ships[owner].playerIndex, scatter)
    ensures !ScattersFragments(st, owner, hit) ==> r.spawned == st.spawned
  {
    var p := st.projectile;
    if Skipped(p, st.ships, owner) || !Hits(p, hit) then st
    else if owner in st.ships then
      var ship := st.ships[owner];
      var damaged :=
        if p.doesDamage
        then st.(ships := st.ships[owner := ship.(health := Max(ship.health - HitDamage, 0))],
                 spawned := st.spawned + Fragments(ship.playerIndex, scatter))
        else st;
      damaged.(projectile := p.(timeToLive := 0))
    else
      st.(projectile := p.(velocity := Zero, timeToLive := 150))
  }

  /** The collision loop from collider `i` on, in iteration order. */
  function CheckColliders(st: Frame, colliders: seq<ObjectId>, i: nat, hit: nat -> bool, scatter: nat -> Velocity): (r: Frame)
    requires i <= |colliders|
    ensures r.ships.Keys == st.ships.Keys
    decreases |colliders| - i
  {
    if i == |colliders| then st
    else CheckColliders(CheckCollider(st, colliders[i], hit(i), scatter), colliders, i + 1, hit, scatter)
  }

  /**
   * `ProjectileComponent::Update`. `colliders` holds the owner of each
   * collidable component in iteration order, `hit(i)` whether the move
   * crosses the i-th collider's bounding sphere, and `scatter(k)` the
   * velocity of the k-th fragment.
   */
  function Update(p: Projectile, ships: map<ObjectId, Ship>, colliders: seq<ObjectId>, hit: nat -> bool, scatter: nat -> Velocity): (r: Frame)
    ensures p.timeToLive <= 0 ==> r == Frame(p, ships, true, false, [])
    ensures p.timeToLive > 0 ==> !r.deleted
    ensures p.timeToLive > 0 && p.velocity.Zero? ==> r == Frame(p.(timeToLive := p.timeToLive - 1), ships, false, false, [])
    ensures p.timeToLive > 0 && p.velocity.Moving? ==> r.moved
  {
    if p.timeToLive <= 0 then Frame(p, ships, true, false, [])
    else
      var p1 := p.(timeToLive := p.timeToLive - 1);
      if p1.velocity.Zero? then Frame(p1, ships, false, false, [])
      else
        CheckColliderFlags(Frame(p1, ships, false, true, []), colliders, 0, hit, scatter);
        CheckColliders(Frame(p1, ships, false, true, []), colliders, 0, hit, scatter)
  }

  /** The frame the loop started at `i` has reached when it comes to collider `j`. */
  function FrameBefore(st: Frame, colliders: seq<ObjectId>, i: nat, j: nat, hit: nat -> bool, scatter: nat -> Velocity): (r: Frame)
    requires i <= j <= |colliders|
    ensures r.ships.Keys == st.ships.Keys
    decreases j
  {
    if j == i then st
    else CheckCollider(FrameBefore(st, colliders, i, j - 1, hit, scatter), colliders[j - 1], hit(j - 1), scatter)
  }

  /** The loop from `i` is the loop from `j` started at the frame reached there. */
  lemma {:induction false} CheckCollidersSplit(st: Frame, colliders: seq<ObjectId>, i: nat, j: nat, hit: nat -> bool, scatter: nat -> Velocity)
    requires i <= j <= |colliders|
    ensures CheckColliders(st, colliders, i, hit, scatter)
         == CheckColliders(FrameBefore(st, colliders, i, j, hit, scatter), colliders, j, hit, scatter)
    decreases j
  {
    if j > i {
      CheckCollidersSplit(st, colliders, i, j - 1, hit, scatter);
      var b := FrameBefore(st, colliders, i, j - 1, hit, scatter);
      assert FrameBefore(st, colliders, i, j, hit, scatter) == CheckCollider(b, colliders[j - 1], hit(j - 1), scatter);
    }
  }

  lemma {:induction false} CheckColliderFlags(st: Frame, colliders: seq<ObjectId>, i: nat, hit: nat -> bool, scatter: nat -> Velocity)
    requires i <= |colliders|
    ensures CheckColliders(st, colliders, i, hit, scatter).deleted == st.deleted
    ensures CheckColliders(st, colliders, i, hit, scatter).moved == st.moved
    decreases |colliders| - i
  {
    if i < |colliders| {
      CheckColliderFlags(CheckCollider(st, colliders[i], hit(i), scatter), colliders, i + 1, hit, scatter);
    }
  }

  // ---------------------------------------------------------------------------
  // Properties of the collision loop

  /** A projectile that has come to rest hits nothing more: the rest of the loop changes nothing. */
  lemma {:induction false} RestingProjectileHitsNothing(st: Frame, colliders: seq<ObjectId>, i: nat, hit: nat -> bool, scatter: nat -> Velocity)
    requires i <= |colliders| && NearlyZero(st.projectile.velocity)
    ensures CheckColliders(st, colliders, i, hit, scatter) == st
    decreases |colliders| - i
  {
    if i < |colliders| {
      RestingProjectileHitsNothing(st, colliders, i + 1, hit, scatter);
    }
  }

  /** Health only goes down, never below zero through a hit; ship identities and owners are kept. */
  predicate NoHealing(before: map<ObjectId, Ship>, after: map<ObjectId, Ship>) {
    after.Keys == before.Keys
    && forall o :: o in before ==>
         after[o].playerIndex == before[o].playerIndex
         && (after[o].health == before[o].health || 0 <= after[o].health < before[o].health)
  }

  lemma {:induction false} CheckCollidersNeverHeals(st: Frame, colliders: seq<ObjectId>, i: nat, hit: nat -> bool, scatter: nat -> Velocity)
    requires i <= |colliders|
    ensures NoHealing(st.ships, CheckColliders(st, colliders, i, hit, scatter).ships)
    decreases |colliders| - i
  {
    if i < |colliders| {
      var next := CheckCollider(st, colliders[i], hit(i), scatter);
      CheckCollidersNeverHeals(next, colliders, i + 1, hit, scatter);
      var last := CheckColliders(next, colliders, i + 1, hit, scatter);
      assert NoHealing(st.ships, next.ships) by {
        forall o | o in st.ships
          ensures next.ships[o].health == st.ships[o].health || 0 <= next.ships[o].health < st.ships[o].health
        {
        }
      }
      assert CheckColliders(st, colliders, i, hit, scatter) == last;
    }
  }

  /**
   * When the loop reaches collider `j` and the hit there damages, the ship
   * loses `HitDamage` health, down to no less than zero, and later colliders
   * never give any of it back. `CheckCollidersSplit` brings any loop to the
   * frame it has reached at `j`.
   */
  lemma DamagingHitLowersHealth(st: Frame, colliders: seq<ObjectId>, j: nat, hit: nat -> bool, scatter: nat -> Velocity)
    requires j < |colliders| && ScattersFragments(st, colliders[j], hit(j))
    ensures var after := CheckColliders(st, colliders, j, hit, scatter).ships[colliders[j]].health;
            after <= Max(st.ships[colliders[j]].health - HitDamage, 0) && after < st.ships[colliders[j]].health
  {
    var next := CheckCollider(st, colliders[j], hit(j), scatter);
    HealthNeverRises(next, colliders, j + 1, hit, scatter, colliders[j]);
  }

  /** Along the rest of the loop a ship's health never rises. */
  lemma HealthNeverRises(st: Frame, colliders: seq<ObjectId>, i: nat, hit: nat -> bool, scatter: nat -> Velocity, o: ObjectId)
    requires i <= |colliders| && o in st.ships
    ensures CheckColliders(st, colliders, i, hit, scatter).ships[o].health <= st.ships[o].health
  {
    CheckCollidersNeverHeals(st, colliders, i, hit, scatter);
  }

  /** Every fragment is harmless, and fragments come in whole fans of `MaxParticles`. */
  predicate HarmlessFans(spawned: seq<Projectile>) {
    |spawned| % MaxParticles == 0 && forall k :: 0 <= k < |spawned| ==> !spawned[k].doesDamage
  }

  lemma {:induction false} CheckCollidersSpawnsHarmlessFans(st: Frame, colliders: seq<ObjectId>, i: nat, hit: nat -> bool, scatter: nat -> Velocity)
    requires i <= |colliders| && HarmlessFans(st.spawned)
    ensures HarmlessFans(CheckColliders(st, colliders, i, hit, scatter).spawned)
    decreases |colliders| - i
  {
    if i < |colliders| {
      var next := CheckCollider(st, colliders[i], hit(i), scatter);
      assert HarmlessFans(next.spawned);
      CheckCollidersSpawnsHarmlessFans(next, colliders, i + 1, hit, scatter);
    }
  }

  /** A harmless projectile changes no ship and spawns nothing. */
  lemma {:induction false} HarmlessProjectileChangesNoShip(st: Frame, colliders: seq<ObjectId>, i: nat, hit: nat -> bool, scatter: nat -> Velocity)
    requires i <= |colliders| && !st.projectile.doesDamage
    ensures CheckColliders(st, colliders, i, hit, scatter).ships == st.ships
    ensures CheckColliders(st, colliders, i, hit, scatter).spawned == st.spawned
    decreases |colliders| - i
  {
    if i < |colliders| {
      var next := CheckCollider(st, colliders[i], hit(i), scatter);
      assert next.ships == st.ships by {
        forall o | o in st.ships ensures next.ships[o] == st.ships[o] {}
      }
      HarmlessProjectileChangesNoShip(next, colliders, i + 1, hit, scatter);
    }
  }

  /** The time to live after an update: one less, or 0 after a ship hit, or 150 after any other hit. */
  lemma {:induction false} CheckCollidersTimeToLive(st: Frame, colliders: seq<ObjectId>, i: nat, hit: nat -> bool, scatter: nat -> Velocity, ttl: int)
    requires i <= |colliders|
    requires st.projectile.timeToLive in {ttl, 0, 150}
    ensures CheckColliders(st, colliders, i, hit, scatter).projectile.timeToLive in {ttl, 0, 150}
    decreases |colliders| - i
  {
    if i < |colliders| {
      CheckCollidersTimeToLive(CheckCollider(st, colliders[i], hit(i), scatter), colliders, i + 1, hit, scatter, ttl);
    }
  }

  /** Everything the update promises, stated over the whole collision loop. */
  lemma UpdateOutcome(p: Projectile, ships: map<ObjectId, Ship>, colliders: seq<ObjectId>, hit: nat -> bool, scatter: nat -> Velocity)
    requires p.timeToLive > 0
    ensures var r := Update(p, ships, colliders, hit, scatter);
      && NoHealing(ships, r.ships)
      && HarmlessFans(r.spawned)
      && r.projectile.timeToLive in {p.timeToLive - 1, 0, 150}
      && r.projectile.belongsToPlayer == p.belongsToPlayer
      && (!p.doesDamage ==> r.ships == ships && r.spawned == [])
  {
    var p1 := p.(timeToLive := p.timeToLive - 1);
    var st := Frame(p1, ships, false, true, []);
    if p1.velocity.Moving? {
      CheckCollidersNeverHeals(st, colliders, 0, hit, scatter);
      CheckCollidersSpawnsHarmlessFans(st, colliders, 0, hit, scatter);
      CheckCollidersTimeToLive(st, colliders, 0, hit, scatter, p.timeToLive - 1);
      CheckCollidersKeepPlayer(st, colliders, 0, hit, scatter);
      if !p.doesDamage {
        HarmlessProjectileChangesNoShip(st, colliders, 0, hit, scatter);
      }
    }
  }

  lemma {:induction false} CheckCollidersKeepPlayer(st: Frame, colliders: seq<ObjectId>, i: nat, hit: nat -> bool, scatter: nat -> Velocity)
    requires i <= |colliders|
    ensures CheckColliders(st, colliders, i, hit, scatter).projectile.belongsToPlayer == st.projectile.belongsToPlayer
    ensures CheckColliders(st, colliders, i, hit, scatter).projectile.doesDamage == st.projectile.doesDamage
    decreases |colliders| - i
  {
    if i < |colliders| {
      CheckCollidersKeepPlayer(CheckCollider(st, colliders[i], hit(i), scatter), colliders, i + 1, hit, scatter);
    }
  }

  /**
   * A hit on a ship does not end the loop: one damaging shot whose path
   * crosses two enemy ships damages both in the same update.
   */
  lemma OneShotDamagesTwoShips()
    ensures var ships := map[1 := Ship(0, 300), 2 := Ship(0, 300)];
      var r := Update(Projectile(Moving(7, false), 10, 1, true), ships, [1, 2], _ => true, _ => Zero);
      r.ships == map[1 := Ship(0, 200), 2 := Ship(0, 200)] && |r.spawned| == 2 * MaxParticles
  {
    var ships := map[1 := Ship(0, 300), 2 := Ship(0, 300)];
    var p1 := Projectile(Moving(7, false), 9, 1, true);
    var st0 := Frame(p1, ships, false, true, []);
    var st1 := CheckCollider(st0, 1, true, _ => Zero);
    assert st1.ships == map[1 := Ship(0, 200), 2 := Ship(0, 300)];
    var st2 := CheckCollider(st1, 2, true, _ => Zero);
    assert st2.ships == map[1 := Ship(0, 200), 2 := Ship(0, 200)];
  }
}

=== FILE: scene_view.dfy ===
/**
 * The decision logic of the editor's scene view context: how a picking read-back
 * is decoded into component, object and part, which view tag the camera mode
 * excludes, and when setting up the render target is skipped. Rendering,
 * swap chains and the picking pass are foreign; their outputs are inputs here.
 */
module SceneViews {
  import opened Wrappers

  // ---------------------------------------------------------------------------
  // Picking identifiers

  /** The low 24 bits of a picking id name the component. */
  const ComponentMask: bv32 := 0x00FF_FFFF

  /** Bit position of the part index in a picking id. */
  const PartShift: bv32 := 24

  /** The component id of a picking id: its low 24 bits. */
  function ComponentId(pickingId: bv32): (r: bv32)
    ensures r < 0x100_0000
  {
    pickingId & ComponentMask
  }

  /** The part index of a picking id: its high 8 bits. */
  function PartIndex(pickingId: bv32): (r: bv32)
    ensures r < 0x100
    ensures (r << PartShift) | ComponentId(pickingId) == pickingId
  {
    pickingId >> PartShift
  }

  /** The picking id the picking pass writes for a part of a component. */
  function PickingId(part: bv32, component: bv32): (id: bv32)
    requires part < 0x100 && component < 0x100_0000
    ensures ComponentId(id) == component && PartIndex(id) == part
  {
    (part << PartShift) | component
  }

  // ---------------------------------------------------------------------------
  // Picking

  /** `ezUuid`; the default-constructed value is invalid. */
  datatype Uuid = Uuid(value: nat)

  const EmptyUuid := Uuid(0)

  predicate IsValid(u: Uuid) {
    u != EmptyUuid
  }

  /** `ezComponentHandle`; the default-constructed value resolves to nothing. */
  datatype ComponentHandle = InvalidComponent | ComponentHandle(index: nat, generation: nat)

  /** `ezGameObjectHandle`. */
  datatype ObjectHandle = ObjectHandle(index: nat, generation: nat)

  /** The editor's id tables of the document context and the components the world still holds. */
  datatype DocumentContext = DocumentContext(
    componentPicking: map<bv32, Uuid>,
    otherPicking: map<bv32, Uuid>,
    componentMap: map<Uuid, ComponentHandle>,
    gameObjectMap: map<ObjectHandle, Uuid>,
    liveComponents: map<ComponentHandle, ObjectHandle>)

  /** The world never holds a component under the invalid handle: resolving it always fails. */
  predicate WellFormedContext(ctx: DocumentContext) {
    InvalidComponent !in ctx.liveComponents
  }

  /** Lookup in a guid table; a missing entry reads as the empty uuid. */
  function GuidOf<K>(table: map<K, Uuid>, key: K): (r: Uuid)
    ensures key !in table ==> r == EmptyUuid
    ensures key in table ==> r == table[key]
  {
    if key in table then table[key] else EmptyUuid
  }

  /** Lookup in the component map; a missing guid reads as the invalid handle. */
  function HandleOf(ctx: DocumentContext, guid: Uuid): (r: ComponentHandle)
    ensures guid !in ctx.componentMap ==> r == InvalidComponent
  {
    if guid in ctx.componentMap then ctx.componentMap[guid] else InvalidComponent
  }

  /** Floating-point results of the picking pass (normal, ray start, picked position), as tokens. */
  datatype Geometry = Geometry(normal: nat, rayStart: nat, position: nat)

  /** The picking pass read-back: whether the matrix is an `ezMat4`, the picking id and the geometry. */
  datatype ReadBack = ReadBack(matrixIsMat4: bool, pickingId: bv32, geometry: Geometry)

  /**
   * `ezViewPickingResultMsgToEditor`. `None` marks a field left at its
   * default: the result is sent with whatever was filled in.
   */
  datatype PickingResult = PickingResult(
    componentGuid: Uuid,
    otherGuid: Uuid,
    objectGuid: Uuid,
    partIndex: Option<bv32>,
    geometry: Option<Geometry>)

  const UnfilledResult := PickingResult(EmptyUuid, EmptyUuid, EmptyUuid, None, None)

  /**
   * `PickObjectAt`. `readBack` is `None` when there is no view or the picking
   * pass exposes no matrix read-back.
   */
  function PickObjectAt(ctx: DocumentContext, readBack: Option<ReadBack>): (r: PickingResult)
    ensures readBack.None? || !readBack.value.matrixIsMat4 ==> r == UnfilledResult
    ensures readBack.Some? && readBack.value.matrixIsMat4 ==>
              var id := readBack.value.pickingId;
              r.geometry == Some(readBack.value.geometry)
              && r.otherGuid == GuidOf(ctx.otherPicking, ComponentId(id))
              && (r.componentGuid == EmptyUuid || r.componentGuid == GuidOf(ctx.componentPicking, ComponentId(id)))
              && (r.objectGuid != EmptyUuid || r.partIndex.Some? ==> IsValid(r.componentGuid))
    ensures r.partIndex.Some? <==> IsValid(r.componentGuid) && readBack.Some? && readBack.value.matrixIsMat4
    ensures r.partIndex.Some? ==> r.partIndex.value == PartIndex(readBack.value.pickingId)
  {
    if readBack.None? || !readBack.value.matrixIsMat4 then UnfilledResult
    else
      var id := readBack.value.pickingId;
      var componentGuid := GuidOf(ctx.componentPicking, ComponentId(id));
      var res := PickingResult(componentGuid, GuidOf(ctx.otherPicking, ComponentId(id)), EmptyUuid, None, Some(readBack.value.geometry));
      if !IsValid(componentGuid) then res
      else
        var handle := HandleOf(ctx, componentGuid);
        if handle in ctx.liveComponents then
          res.(objectGuid := GuidOf(ctx.gameObjectMap, ctx.liveComponents[handle]), partIndex := Some(PartIndex(id)))
        else
          res.(componentGuid := EmptyUuid)
  }

  /**
   * A component that was picked but has since been deleted from the world
   * yields no component, no object and no part: only the other-guid and the
   * geometry are reported.
   */
  lemma StaleComponentIsNotReported(ctx: DocumentContext, rb: ReadBack)
    requires rb.matrixIsMat4
    requires IsValid(GuidOf(ctx.componentPicking, ComponentId(rb.pickingId)))
    requires HandleOf(ctx, GuidOf(ctx.componentPicking, ComponentId(rb.pickingId))) !in ctx.liveComponents
    ensures PickObjectAt(ctx, Some(rb))
              == UnfilledResult.(otherGuid := GuidOf(ctx.otherPicking, ComponentId(rb.pickingId)), geometry := Some(rb.geometry))
  {
  }

  /**
   * A picked component guid that the component map does not know reads as
   * the invalid handle, which resolves to nothing: like a deleted component,
   * it yields no component, no object and no part.
   */
  lemma UnmappedComponentIsNotReported(ctx: DocumentContext, rb: ReadBack)
    requires WellFormedContext(ctx)
    requires rb.matrixIsMat4
    requires IsValid(GuidOf(ctx.componentPicking, ComponentId(rb.pickingId)))
    requires GuidOf(ctx.componentPicking, ComponentId(rb.pickingId)) !in ctx.componentMap
    ensures PickObjectAt(ctx, Some(rb))
              == UnfilledResult.(otherGuid := GuidOf(ctx.otherPicking, ComponentId(rb.pickingId)), geometry := Some(rb.geometry))
  {
    StaleComponentIsNotReported(ctx, rb);
  }

  /**
   * A live component picked at a given part is reported with that part and
   * with the guid of its owner object, whichever bits the id carries above it.
   */
  lemma LivePickReportsOwnerAndPart(ctx: DocumentContext, rb: ReadBack, part: bv32, component: bv32)
    requires part < 0x100 && component < 0x100_0000
    requires rb.matrixIsMat4 && rb.pickingId == PickingId(part, component)
    requires IsValid(GuidOf(ctx.componentPicking, component))
    requires HandleOf(ctx, GuidOf(ctx.componentPicking, component)) in ctx.liveComponents
    ensures var r := PickObjectAt(ctx, Some(rb));
      && r.componentGuid == GuidOf(ctx.componentPicking, component)
      && r.objectGuid == GuidOf(ctx.gameObjectMap, ctx.liveComponents[HandleOf(ctx, GuidOf(ctx.componentPicking, component))])
      && r.partIndex == Some(part)
  {
    assert ComponentId(rb.pickingId) == component && PartIndex(rb.pickingId) == part;
  }

  // ---------------------------------------------------------------------------
  // Redraw

  /** `ezCameraMode`, as far as `Redraw` distinguishes it. */
  datatype CameraMode = OrthoFixedHeight | OrthoFixedWidth | OtherCameraMode

  predicate IsOrtho(mode: CameraMode) {
    mode == OrthoFixedHeight || mode == OrthoFixedWidth
  }

  const NotInOrthoMode: string := "NotInOrthoMode"

  /** The views handed to the render loop, and the view's exclude tags after `Redraw`. */
  datatype RedrawResult = RedrawResult(excludeTags: set<string>, mainViews: seq<nat>)

  /**
   * `Redraw`. `gameStateViews` is `None` when the world has no game state,
   * else the main views that state adds; the editor's own view is added
   * in both cases.
   */
  function Redraw(excludeTags: set<string>, mode: CameraMode, gameStateViews: Option<seq<nat>>, ownView: nat): (r: RedrawResult)
    ensures NotInOrthoMode in r.excludeTags <==> IsOrtho(mode)
    ensures r.excludeTags - {NotInOrthoMode} == excludeTags - {NotInOrthoMode}
    ensures |r.mainViews| > 0 && r.mainViews[|r.mainViews| - 1] == ownView
    ensures gameStateViews.Some? ==> r.mainViews[..|r.mainViews| - 1] == gameStateViews.value
    ensures gameStateViews.None? ==> r.mainViews == [ownView]
  {
    var tags := if IsOrtho(mode) then excludeTags + {NotInOrthoMode} else excludeTags - {NotInOrthoMode};
    var views := if gameStateViews.Some? then gameStateViews.value else [];
    RedrawResult(tags, views + [ownView])
  }

  /** Redrawing twice with the same camera leaves the same tags as redrawing once. */
  lemma RedrawTagsIdempotent(excludeTags: set<string>, mode: CameraMode, g: Option<seq<nat>>, v: nat)
    ensures Redraw(Redraw(excludeTags, mode, g, v).excludeTags, mode, g, v).excludeTags == Redraw(excludeTags, mode, g, v).excludeTags
  {
  }

  // ---------------------------------------------------------------------------
  // Render target

  /** `ezUInt16`. */
  type U16 = x: int | 0 <= x < 0x1_0000

  /** The editor window record: a handle of 0 means no window. */
  datatype EditorWindow = EditorWindow(hWnd: nat, width: U16, height: U16)

  /** Calls into the game application. */
  datatype AppCall = RemoveWindow | AddWindow(hWnd: nat)

  /** What the view context holds about its render target. */
  datatype TargetState = TargetState(
    window: EditorWindow,
    swapChain: Option<nat>,
    hasView: bool,
    viewport: Option<(U16, U16)>)

  /**
   * `SetupRenderTarget`: nothing to do when a window exists with the same
   * size; otherwise the old window is removed, the new one added with a swap
   * chain from `newSwapChain`, the view created if missing and its viewport
   * set to the new size. Returns the new state and the application calls made.
   */
  function SetupRenderTarget(st: TargetState, hWnd: nat, width: U16, height: U16, newSwapChain: nat): (r: (TargetState, seq<AppCall>))
    ensures st.window.hWnd != 0 && st.window.width == width && st.window.height == height ==> r == (st, [])
    ensures !(st.window.hWnd != 0 && st.window.width == width && st.window.height == height) ==>
              r.0 == TargetState(EditorWindow(hWnd, width, height), Some(newSwapChain), true, Some((width, height)))
              && r.1 == (if st.window.hWnd != 0 then [RemoveWindow] else []) + [AddWindow(hWnd)]
  {
    if st.window.hWnd != 0 && st.window.width == width && st.window.height == height then (st, [])
    else
      var removed := if st.window.hWnd != 0 then [RemoveWindow] else [];
      (TargetState(EditorWindow(hWnd, width, height), Some(newSwapChain), true, Some((width, height))),
       removed + [AddWindow(hWnd)])
  }

  /** Setting up the same render target twice: the second call does nothing, provided a window handle was given. */
  lemma SetupRenderTargetIdempotent(st: TargetState, hWnd: nat, width: U16, height: U16, s1: nat, s2: nat)
    requires hWnd != 0
    ensures var first := SetupRenderTarget(st, hWnd, width, height, s1).0;
      SetupRenderTarget(first, hWnd, width, height, s2) == (first, [])
  {
  }

  /**
   * The early return compares the size only: a different window of the
   * same size is ignored and the old window stays registered.
   */
  lemma SameSizeNewWindowIgnored(st: TargetState, hWnd: nat, s: nat)
    requires st.window.hWnd != 0 && hWnd != st.window.hWnd
    ensures SetupRenderTarget(st, hWnd, st.window.width, st.window.height, s).0.window.hWnd == st.window.hWnd
  {
  }
}

=== FILE: seqs.dfy ===
/** Facts about sequences used as ordered, duplicate-free lists. */
module Seqs {

  /** No element occurs twice. */
  predicate NoDuplicates<T(==)>(s: seq<T>) {
    forall i, j :: 0 <= i < j < |s| ==> s[i] != s[j]
  }

  /** The set of elements of `s`. */
  function Elems<T>(s: seq<T>): set<T> {
    set x | x in s
  }

  /** Joining two duplicate-free lists with no common element gives a duplicate-free list. */
  lemma NoDuplicatesAppend<T>(a: seq<T>, b: seq<T>)
    requires NoDuplicates(a) && NoDuplicates(b)
    requires forall x :: x in b ==> x !in a
    ensures NoDuplicates(a + b)
  {
    forall i, j | 0 <= i < j < |a + b| ensures (a + b)[i] != (a + b)[j] {
      if j >= |a| && i < |a| {
        assert (a + b)[j] == b[j - |a|];
        assert b[j - |a|] in b;
      } else if i >= |a| {
        assert (a + b)[i] == b[i - |a|] && (a + b)[j] == b[j - |a|];
      }
    }
  }

  /** The lists of `ss` joined end to end, in order. */
  function Flatten<T>(ss: seq<seq<T>>): seq<T> {
    if ss == [] then [] else ss[0] + Flatten(ss[1..])
  }

  /** The indices `0, 1, ..., n - 1` in order. */
  function Indices(n: nat): (r: seq<nat>)
    ensures |r| == n && forall i :: 0 <= i < n ==> r[i] == i
  {
    if n == 0 then [] else Indices(n - 1) + [n - 1]
  }
}

=== FILE: tex_processor.dfy ===
/**
 * The decision rules of the texture converter: how many channels the channel
 * mappings use, the order of the processing steps and where it stops, which
 * mip level the thumbnail is made from, and when a low-resolution chain is
 * extracted. Image operations themselves (conversion, scaling, mipmaps, HDR)
 * are foreign: their success or failure is an input.
 */
module TexConv {
  import opened Wrappers

  /** `m_Channel[0..3].m_iInputImageIndex` of one slice mapping; -1 marks an unused channel. */
  type SliceMapping = s: seq<int> | |s| == 4 witness [-1, -1, -1, -1]

  /** Channel `i` of some mapping reads an input image. */
  predicate ChannelUsed(mappings: seq<SliceMapping>, i: nat) {
    exists k :: 0 <= k < |mappings| && i < 4 && mappings[k][i] != -1
  }

  /**
   * `DetectNumChannels`: one more than the highest channel index that any
   * mapping uses, and failure when no channel is used.
   */
  method DetectNumChannels(mappings: seq<SliceMapping>) returns (result: EzResult, numChannels: nat)
    ensures numChannels <= 4
    ensures forall i: nat :: numChannels <= i < 4 ==> !ChannelUsed(mappings, i)
    ensures numChannels > 0 ==> ChannelUsed(mappings, numChannels - 1)
    ensures result == Failure <==> numChannels == 0
    ensures result == Failure <==> forall i: nat :: i < 4 ==> !ChannelUsed(mappings, i)
  {
    numChannels := 0;
    var k := 0;
    while k < |mappings|
      invariant 0 <= k <= |mappings| && numChannels <= 4
      invariant forall j, i :: 0 <= j < k && numChannels <= i < 4 ==> mappings[j][i] == -1
      invariant numChannels > 0 ==> exists j :: 0 <= j < k && mappings[j][numChannels - 1] != -1
    {
      var i := 0;
      while i < 4
        invariant 0 <= i <= 4 && numChannels <= 4
        invariant forall j, c :: 0 <= j < k && numChannels <= c < 4 ==> mappings[j][c] == -1
        invariant forall c :: 0 <= c < i && numChannels <= c ==> mappings[k][c] == -1
        invariant numChannels > 0 ==> exists j :: 0 <= j <= k && mappings[j][numChannels - 1] != -1
      {
        if mappings[k][i] != -1 {
          numChannels := if numChannels < i + 1 then i + 1 else numChannels;
        }
        i := i + 1;
      }
      k := k + 1;
    }
    forall i: nat | numChannels <= i < 4 ensures !ChannelUsed(mappings, i) {
      forall j | 0 <= j < |mappings| ensures mappings[j][i] == -1 {
      }
    }
    if numChannels == 0 {
      return Failure, numChannels;
    }
    var j :| 0 <= j < |mappings| && mappings[j][numChannels - 1] != -1;
    assert ChannelUsed(mappings, numChannels - 1);
    return Success, numChannels;
  }

  /** The channel count `DetectNumChannels` computes, as a value: the number of channels up to the last used one. */
  function UsedChannels(mappings: seq<SliceMapping>): (n: nat)
    ensures n <= 4
    ensures forall i: nat :: n <= i < 4 ==> !ChannelUsed(mappings, i)
    ensures n > 0 ==> ChannelUsed(mappings, n - 1)
  {
    if ChannelUsed(mappings, 3) then 4
    else if ChannelUsed(mappings, 2) then 3
    else if ChannelUsed(mappings, 1) then 2
    else if ChannelUsed(mappings, 0) then 1
    else 0
  }

  /** The loop computes the same count as the value definition. */
  method DetectNumChannelsAgrees(mappings: seq<SliceMapping>) returns (result: EzResult, numChannels: nat)
    ensures numChannels == UsedChannels(mappings)
    ensures result == Success <==> 1 <= numChannels <= 4
  {
    result, numChannels := DetectNumChannels(mappings);
  }

  // ---------------------------------------------------------------------------
  // Mip selection and low-resolution output

  /** Width and height of one mip level. */
  datatype MipSize = MipSize(width: nat, height: nat)

  predicate Fits(m: MipSize, target: nat) {
    m.width <= target && m.height <= target
  }

  /**
   * The thumbnail loop of `GenerateThumbnailOutput`: the first mip whose width
   * and height are both at most `target`, else the last mip, else 0.
   */
  method SelectThumbnailMip(mips: seq<MipSize>, target: nat) returns (best: nat)
    ensures |mips| == 0 ==> best == 0
    ensures |mips| > 0 ==> best < |mips|
    ensures best < |mips| && Fits(mips[best], target) ==> forall m :: 0 <= m < best ==> !Fits(mips[m], target)
    ensures best < |mips| && !Fits(mips[best], target) ==> best == |mips| - 1 && forall m :: 0 <= m < |mips| ==> !Fits(mips[m], target)
  {
    best := 0;
    var m := 0;
    while m < |mips|
      invariant 0 <= m <= |mips|
      invariant forall j :: 0 <= j < m ==> !Fits(mips[j], target)
      invariant m > 0 ==> best == m - 1
      invariant m == 0 ==> best == 0
    {
      if Fits(mips[m], target) {
        best := m;
        return;
      }
      best := m;
      m := m + 1;
    }
  }

  /** The mip the thumbnail loop selects, as a value: the partner of `SelectThumbnailMip`. */
  function BestMip(mips: seq<MipSize>, target: nat): (r: nat)
    ensures |mips| > 0 ==> r < |mips|
    ensures |mips| == 0 ==> r == 0
  {
    if |mips| == 0 then 0
    else if Fits(mips[0], target) then 0
    else if |mips| == 1 then 0
    else 1 + BestMip(mips[1..], target)
  }

  /** The loop and the value definition select the same mip. */
  lemma {:induction false} BestMipIsFirstFit(mips: seq<MipSize>, target: nat)
    ensures (BestMip(mips, target) < |mips| && Fits(mips[BestMip(mips, target)], target))
              ==> forall m :: 0 <= m < BestMip(mips, target) ==> !Fits(mips[m], target)
    ensures (BestMip(mips, target) < |mips| && !Fits(mips[BestMip(mips, target)], target))
              ==> BestMip(mips, target) == |mips| - 1 && forall m :: 0 <= m < |mips| ==> !Fits(mips[m], target)
  {
    if |mips| > 1 && !Fits(mips[0], target) {
      BestMipIsFirstFit(mips[1..], target);
      forall m | 1 <= m < |mips| ensures mips[m] == mips[1..][m - 1] {}
    }
  }

  /** What the thumbnail step did: its status and the mip it was made from, `None` when the output was left untouched. */
  datatype ThumbnailOutcome = ThumbnailOutcome(result: EzResult, sourceMip: Option<nat>)

  /**
   * `GenerateThumbnailOutput`: nothing to do for a target of 0; otherwise the
   * thumbnail is made from the selected mip, and the status is that of the
   * foreign scaling and conversion.
   */
  function GenerateThumbnailOutput(mips: seq<MipSize>, target: nat, scaleAndConvert: EzResult): (r: ThumbnailOutcome)
    ensures target == 0 ==> r == ThumbnailOutcome(Success, None)
    ensures target != 0 ==> r.result == scaleAndConvert && r.sourceMip.Some?
    ensures target != 0 && |mips| > 0 ==> r.sourceMip.value < |mips|
    ensures target != 0 ==> r.sourceMip == Some(BestMip(mips, target))
  {
    if target == 0 then ThumbnailOutcome(Success, None)
    else ThumbnailOutcome(scaleAndConvert, Some(BestMip(mips, target)))
  }

  /** What the low-resolution step did: its status and whether a lower mip chain was extracted. */
  datatype LowResOutcome = LowResOutcome(result: EzResult, extracted: bool)

  /**
   * `GenerateLowResOutput`: no output for a requested mip of 0 or when the
   * image has no more mips than requested; otherwise the status of the
   * foreign extraction.
   */
  function GenerateLowResOutput(mipCount: nat, lowResMip: nat, extract: EzResult): (r: LowResOutcome)
    ensures r.extracted <==> lowResMip != 0 && mipCount > lowResMip
    ensures !r.extracted ==> r.result == Success
    ensures r.extracted ==> r.result == extract
  {
    if lowResMip == 0 then LowResOutcome(Success, false)
    else if mipCount <= lowResMip then LowResOutcome(Success, false)
    else LowResOutcome(extract, true)
  }

  // ---------------------------------------------------------------------------
  // Process

  /** `ezTexConvOutputType`, as far as `Process` distinguishes it. */
  datatype OutputType = DecalAtlas | ImageOutput

  /** The steps `Process` runs, each guarded by `EZ_SUCCEED_OR_RETURN`. */
  datatype Step =
    | GenerateDecalAtlasStep
    | DetectNumChannelsStep | LoadInputImagesStep | AdjustUsageStep | ForceSRGBFormatsStep
    | ChooseOutputFormatStep | DetermineTargetResolutionStep | ConvertAndScaleInputImagesStep
    | Assemble2DTextureStep | AdjustHdrExposureStep | GenerateMipmapsStep | PremultiplyAlphaStep
    | GenerateOutputStep | GenerateThumbnailOutputStep | GenerateLowResOutputStep

  /** The fixed step order for every output type except the decal atlas. */
  const ImagePipeline: seq<Step> := [
    DetectNumChannelsStep, LoadInputImagesStep, AdjustUsageStep, ForceSRGBFormatsStep,
    ChooseOutputFormatStep, DetermineTargetResolutionStep, ConvertAndScaleInputImagesStep,
    Assemble2DTextureStep, AdjustHdrExposureStep, GenerateMipmapsStep, PremultiplyAlphaStep,
    GenerateOutputStep, GenerateThumbnailOutputStep, GenerateLowResOutputStep]

  /** The steps that ran, in order, and the overall status. */
  datatype Trace = Trace(ran: seq<Step>, result: EzResult)

  /** Every step in `steps` reports success. */
  predicate AllSucceed(steps: seq<Step>, outcome: Step -> EzResult) {
    forall k :: 0 <= k < |steps| ==> outcome(steps[k]) == Success
  }

  /** Every step of `t` before its last succeeded, and a failed trace ends with the step that failed. */
  predicate StopsAtFirstFailure(t: Trace, outcome: Step -> EzResult) {
    && (forall k :: 0 <= k < |t.ran| - 1 ==> outcome(t.ran[k]) == Success)
    && (t.result == Failure ==> |t.ran| > 0 && outcome(t.ran[|t.ran| - 1]) == Failure)
  }

  /** Run `steps` in order, stopping at the first that fails. */
  function RunSteps(steps: seq<Step>, outcome: Step -> EzResult): (r: Trace)
    ensures r.ran <= steps
    ensures StopsAtFirstFailure(r, outcome)
    ensures r.result == Success <==> r.ran == steps && AllSucceed(steps, outcome)
  {
    if steps == [] then Trace([], Success)
    else if outcome(steps[0]) == Failure then Trace([steps[0]], Failure)
    else
      var rest := RunSteps(steps[1..], outcome);
      assert forall k :: 1 <= k < |steps| ==> steps[k] == steps[1..][k - 1];
      Trace([steps[0]] + rest.ran, rest.result)
  }

  /** The converter's settings that `Process` reads. */
  datatype Descriptor = Descriptor(
    outputType: OutputType,
    channelMappings: seq<SliceMapping>,
    thumbnailResolution: nat,
    lowResMipmaps: nat)

  /**
   * The status of each step. Channel detection, the thumbnail and the
   * low-resolution output follow their models; the other steps, and the
   * foreign parts of these, report `foreign`.
   */
  function StepResult(desc: Descriptor, outputMips: seq<MipSize>, foreign: Step -> EzResult, s: Step): EzResult {
    match s
    case DetectNumChannelsStep => if UsedChannels(desc.channelMappings) == 0 then Failure else Success
    case GenerateThumbnailOutputStep =>
      GenerateThumbnailOutput(outputMips, desc.thumbnailResolution, foreign(s)).result
    case GenerateLowResOutputStep =>
      GenerateLowResOutput(|outputMips|, desc.lowResMipmaps, foreign(s)).result
    case _ => foreign(s)
  }

  /** `Process`: the decal atlas alone, or the image pipeline up to its first failure. */
  function Process(desc: Descriptor, outputMips: seq<MipSize>, foreign: Step -> EzResult): (r: Trace)
    ensures desc.outputType == DecalAtlas ==> r == Trace([GenerateDecalAtlasStep], foreign(GenerateDecalAtlasStep))
    ensures desc.outputType != DecalAtlas ==>
              r.ran <= ImagePipeline
              && StopsAtFirstFailure(r, s => StepResult(desc, outputMips, foreign, s))
              && (r.result == Success <==>
                    (r.ran == ImagePipeline && AllSucceed(ImagePipeline, s => StepResult(desc, outputMips, foreign, s))))
  {
    if desc.outputType == DecalAtlas then
      RunSteps([GenerateDecalAtlasStep], foreign)
    else
      RunSteps(ImagePipeline, s => StepResult(desc, outputMips, foreign, s))
  }

  /** Without any used channel, the pipeline stops before loading a single image. */
  lemma NoChannelsStopsAtDetection(desc: Descriptor, outputMips: seq<MipSize>, foreign: Step -> EzResult)
    requires desc.outputType == ImageOutput
    requires forall k, i :: 0 <= k < |desc.channelMappings| && 0 <= i < 4 ==> desc.channelMappings[k][i] == -1
    ensures Process(desc, outputMips, foreign) == Trace([DetectNumChannelsStep], Failure)
  {
    assert UsedChannels(desc.channelMappings) == 0;
  }

  lemma StepSucceeds(desc: Descriptor, outputMips: seq<MipSize>, foreign: Step -> EzResult, s: Step)
    requires desc.thumbnailResolution == 0 && desc.lowResMipmaps == 0
    requires UsedChannels(desc.channelMappings) > 0
    requires s != GenerateThumbnailOutputStep && s != GenerateLowResOutputStep ==> foreign(s) == Success
    ensures StepResult(desc, outputMips, foreign, s) == Success
  {
  }

  /**
   * A thumbnail target of 0 and a low-resolution request of 0 never fail the
   * pipeline: with every other step succeeding, it succeeds.
   */
  lemma OptionalOutputsCannotFail(desc: Descriptor, outputMips: seq<MipSize>, foreign: Step -> EzResult)
    requires desc.outputType == ImageOutput && desc.thumbnailResolution == 0 && desc.lowResMipmaps == 0
    requires UsedChannels(desc.channelMappings) > 0
    requires forall s :: s != GenerateThumbnailOutputStep && s != GenerateLowResOutputStep ==> foreign(s) == Success
    ensures Process(desc, outputMips, foreign) == Trace(ImagePipeline, Success)
  {
    var r := Process(desc, outputMips, foreign);
    forall k | 0 <= k < |ImagePipeline| ensures StepResult(desc, outputMips, foreign, ImagePipeline[k]) == Success {
      StepSucceeds(desc, outputMips, foreign, ImagePipeline[k]);
    }
    assert AllSucceed(ImagePipeline, s => StepResult(desc, outputMips, foreign, s));
  }
}

=== FILE: text.dfy ===
/**
 * Text helpers shared by the code generators: substring search, whitespace
 * trimming and decimal formatting, each characterised by its contract so that
 * the generators' lemmas can reason about them without unfolding bodies.
 */
module Text {
  import opened Wrappers

  /** `pat` occurs in `s` starting at index `i`. */
  predicate OccursAt(s: string, pat: string, i: nat) {
    i + |pat| <= |s| && s[i..i + |pat|] == pat
  }

  /** `pat` occurs somewhere in `s`. */
  predicate Contains(s: string, pat: string) {
    exists i: nat :: i <= |s| && OccursAt(s, pat, i)
  }

  /** Index of the first occurrence of `pat` in `s` at or after `i`. */
  function FindFrom(s: string, pat: string, i: nat): (r: Option<nat>)
    requires i <= |s|
    decreases |s| - i
    ensures r.Some? ==> i <= r.value <= |s| && OccursAt(s, pat, r.value)
    ensures r.Some? ==> forall j: nat :: i <= j < r.value ==> !OccursAt(s, pat, j)
    ensures r.None? ==> forall j: nat :: i <= j <= |s| ==> !OccursAt(s, pat, j)
  {
    if OccursAt(s, pat, i) then Some(i)
    else if i == |s| then None
    else FindFrom(s, pat, i + 1)
  }

  /** Index of the first occurrence of `pat` in `s` (`FindSubString`; `None` is the null pointer). */
  function FindFirst(s: string, pat: string): (r: Option<nat>)
    ensures r.Some? <==> Contains(s, pat)
    ensures r.Some? ==> OccursAt(s, pat, r.value) && forall j: nat :: j < r.value ==> !OccursAt(s, pat, j)
  {
    FindFrom(s, pat, 0)
  }

  /** Index of the last occurrence of `pat` in `s` at or before `i` (`FindLastSubString`). */
  function FindLastFrom(s: string, pat: string, i: nat): (r: Option<nat>)
    requires i <= |s|
    ensures r.Some? ==> r.value <= i && OccursAt(s, pat, r.value)
    ensures r.Some? ==> forall j: nat :: r.value < j <= i ==> !OccursAt(s, pat, j)
    ensures r.None? ==> forall j: nat :: j <= i ==> !OccursAt(s, pat, j)
  {
    if OccursAt(s, pat, i) then Some(i)
    else if i == 0 then None
    else FindLastFrom(s, pat, i - 1)
  }

  /** The characters `ezStringBuilder::Trim(" \t\n\r")` strips. */
  predicate IsTrimChar(c: char) {
    c == ' ' || c == '\t' || c == '\n' || c == '\r'
  }

  predicate AllTrimChars(s: string) {
    forall i :: 0 <= i < |s| ==> IsTrimChar(s[i])
  }

  /** `s` without its leading trim characters. */
  function TrimStart(s: string): (r: string)
    ensures |r| <= |s| && r == s[|s| - |r|..]
    ensures AllTrimChars(s[..|s| - |r|])
    ensures r == [] || !IsTrimChar(r[0])
  {
    if |s| > 0 && IsTrimChar(s[0]) then
      var r := TrimStart(s[1..]);
      var k := |s| - |r|;
      assert AllTrimChars(s[..k]) by {
        forall i | 0 <= i < k ensures IsTrimChar(s[..k][i]) {
          if i > 0 {
            assert s[..k][i] == s[1..][..k - 1][i - 1];
          }
        }
      }
      r
    else s
  }

  /** `s` without its trailing trim characters. */
  function TrimEnd(s: string): (r: string)
    ensures |r| <= |s| && r == s[..|r|]
    ensures AllTrimChars(s[|r|..])
    ensures r == [] || !IsTrimChar(r[|r| - 1])
  {
    if |s| > 0 && IsTrimChar(s[|s| - 1]) then
      var r := TrimEnd(s[..|s| - 1]);
      assert AllTrimChars(s[|r|..]) by {
        forall i | 0 <= i < |s| - |r| ensures IsTrimChar(s[|r|..][i]) {
          if i < |s| - 1 - |r| {
            assert s[|r|..][i] == s[..|s| - 1][|r|..][i];
          }
        }
      }
      r
    else s
  }

  /** `s` without leading and trailing trim characters: a contiguous slice of `s`. */
  function Trim(s: string): (r: string)
    ensures exists a: nat, b: nat :: a <= b <= |s| && r == s[a..b]
              && AllTrimChars(s[..a]) && AllTrimChars(s[b..])
    ensures r == [] || (!IsTrimChar(r[0]) && !IsTrimChar(r[|r| - 1]))
  {
    var u := TrimStart(s);
    var r := TrimEnd(u);
    var a := |s| - |u|;
    assert r == s[a..a + |r|];
    assert s[a + |r|..] == u[|r|..];
    r
  }

  /** A trimmed string is a fixed point of `Trim`. */
  lemma TrimIdempotent(s: string)
    ensures Trim(Trim(s)) == Trim(s)
  {
    var t := Trim(s);
    assert TrimStart(t) == t;
    assert TrimEnd(t) == t;
  }

  lemma {:induction false} TrimEndDropsTrimTail(u: string, w: string)
    requires AllTrimChars(w)
    ensures TrimEnd(u + w) == TrimEnd(u)
    decreases |w|
  {
    if |w| > 0 {
      var uw := u + w;
      assert IsTrimChar(uw[|uw| - 1]);
      assert uw[..|uw| - 1] == u + w[..|w| - 1];
      TrimEndDropsTrimTail(u, w[..|w| - 1]);
    } else {
      assert u + w == u;
    }
  }

  lemma {:induction false} TrimStartOfAppend(s: string, w: string)
    ensures TrimStart(s + w) == if TrimStart(s) == [] then TrimStart(w) else TrimStart(s) + w
    decreases |s|
  {
    if |s| > 0 {
      assert (s + w)[0] == s[0];
      if IsTrimChar(s[0]) {
        assert (s + w)[1..] == s[1..] + w;
        TrimStartOfAppend(s[1..], w);
      }
    } else {
      assert s + w == w;
    }
  }

  /** Appending trim characters does not change the trimmed text. */
  lemma TrimDropsTrimTail(s: string, w: string)
    requires AllTrimChars(w)
    ensures Trim(s + w) == Trim(s)
  {
    TrimStartOfAppend(s, w);
    if TrimStart(s) == [] {
      assert TrimStart(w) == [];
    } else {
      TrimEndDropsTrimTail(TrimStart(s), w);
    }
  }

  /** An occurrence inside a slice is an occurrence in the whole text, shifted by the cut. */
  lemma OccursAtOfSlice(s: string, a: nat, b: nat, pat: string, j: nat)
    requires a <= b <= |s|
    ensures OccursAt(s[a..b], pat, j) ==> OccursAt(s, pat, a + j)
  {
    if OccursAt(s[a..b], pat, j) {
      var w := s[a..b];
      assert s[a + j..a + j + |pat|] == pat by {
        forall k | 0 <= k < |pat| ensures s[a + j + k] == pat[k] {
          assert w[j..j + |pat|][k] == w[j + k];
        }
      }
    }
  }

  /** A slice of a text contains only what the text contains. */
  lemma ContainsOfSlice(s: string, a: nat, b: nat, pat: string)
    requires a <= b <= |s|
    ensures Contains(s[a..b], pat) ==> Contains(s, pat)
  {
    if Contains(s[a..b], pat) {
      var j: nat :| j <= b - a && OccursAt(s[a..b], pat, j);
      OccursAtOfSlice(s, a, b, pat, j);
    }
  }

  /** An occurrence with none before it is the one `FindFirst` reports. */
  lemma FirstOccurrence(s: string, pat: string, k: nat)
    requires OccursAt(s, pat, k)
    requires forall j: nat :: j < k ==> !OccursAt(s, pat, j)
    ensures FindFirst(s, pat) == Some(k)
  {
  }

  /** A window that covers a character foreign to `pat` is no occurrence of it. */
  lemma NoOccurrenceOver(s: string, pat: string, j: nat, p: nat)
    requires j <= p < j + |pat| && p < |s| && s[p] !in pat
    ensures !OccursAt(s, pat, j)
  {
    if j + |pat| <= |s| {
      assert s[j..j + |pat|][p - j] == s[p];
      assert pat[p - j] in pat;
    }
  }

  /**
   * Appending characters none of which appear in a non-empty `pat` cannot
   * create an occurrence of `pat`.
   */
  lemma NoOccurrenceAcrossForeignTail(t: string, tail: string, pat: string)
    requires |pat| > 0
    requires !Contains(t, pat)
    requires forall k :: 0 <= k < |tail| ==> tail[k] !in pat
    ensures !Contains(t + tail, pat)
  {
    var s := t + tail;
    forall j: nat | j <= |s| ensures !OccursAt(s, pat, j) {
      if j + |pat| <= |t| {
        assert s[j..j + |pat|] == t[j..j + |pat|];
        assert !OccursAt(t, pat, j);
      } else if j + |pat| <= |s| {
        var p := if j < |t| then |t| else j;
        assert s[j..j + |pat|][p - j] == tail[p - |t|];
        assert pat[p - j] in pat;
        assert tail[p - |t|] !in pat;
        assert s[j..j + |pat|] != pat;
      }
    }
  }

  /** The text before the first occurrence of a non-empty `pat` contains no occurrence of it. */
  lemma PrefixBeforeFirstHasNone(s: string, pat: string, i: nat)
    requires |pat| > 0
    requires FindFirst(s, pat) == Some(i)
    ensures !Contains(s[..i], pat)
  {
    forall j: nat | j <= i
      ensures !OccursAt(s[..i], pat, j)
    {
      OccursAtOfSlice(s, 0, i, pat, j);
      assert s[0..i] == s[..i];
    }
  }

  /**
   * When the first character of `pat` does not occur in `x`, an occurrence
   * right after `x` is the first one.
   */
  lemma FirstAfterForeignPrefix(x: string, y: string, pat: string)
    requires |pat| > 0 && pat[0] !in x
    requires |pat| <= |y| && y[..|pat|] == pat
    ensures FindFirst(x + y, pat) == Some(|x|)
  {
    var s := x + y;
    assert s[|x|..|x| + |pat|] == y[..|pat|];
    assert OccursAt(s, pat, |x|);
    forall j: nat | j < |x| ensures !OccursAt(s, pat, j) {
      assert j + |pat| <= |s| ==> s[j..j + |pat|][0] == x[j];
      assert x[j] in x;
    }
  }

  function DigitChar(d: nat): (c: char)
    requires d < 10
  {
    "0123456789"[d]
  }

  /** The value of a string of decimal digits (the partner of `NatToString`). */
  function DecimalValue(s: string): int {
    if s == [] then 0
    else DecimalValue(s[..|s| - 1]) * 10 + (s[|s| - 1] as int - '0' as int)
  }

  predicate IsDigits(s: string) {
    forall i :: 0 <= i < |s| ==> '0' <= s[i] <= '9'
  }

  /** Decimal text of `n` as the engine's formatter writes it: digits only, no leading zero. */
  function NatToString(n: nat): (r: string)
    ensures |r| > 0 && IsDigits(r)
    ensures |r| > 1 ==> r[0] != '0'
    ensures DecimalValue(r) == n
  {
    if n < 10 then [DigitChar(n)]
    else
      var head := NatToString(n / 10);
      var r := head + [DigitChar(n % 10)];
      assert r[..|r| - 1] == head;
      r
  }

  /** Decimal text of a signed integer: a minus sign before the digits of its magnitude. */
  function IntToString(i: int): (r: string)
    ensures |r| > 0
    ensures i < 0 <==> r[0] == '-'
    ensures i < 0 ==> |r| > 1 && IsDigits(r[1..]) && (|r| > 2 ==> r[1] != '0') && DecimalValue(r[1..]) == -i
    ensures i >= 0 ==> IsDigits(r) && (|r| > 1 ==> r[0] != '0') && DecimalValue(r) == i
  {
    if i < 0 then
      var digits := NatToString(-i);
      assert ("-" + digits)[1..] == digits;
      "-" + digits
    else NatToString(i)
  }

  /** Concatenation of a sequence of strings. */
  function Concat(parts: seq<string>): string {
    if parts == [] then [] else parts[0] + Concat(parts[1..])
  }

  /** Dropping the last character of `h + " " + t` leaves `h` when `t` is empty, and drops it from `t` otherwise. */
  lemma DropLastAfterSpace(h: string, t: string)
    ensures var s := h + " " + t;
            && (t == [] ==> s[..|s| - 1] == h)
            && (t != [] ==> s[..|s| - 1] == h + " " + t[..|t| - 1])
  {
    var s := h + " " + t;
    if t == [] {
      assert s == h + " ";
    } else {
      assert s[..|s| - 1] == (h + " ") + t[..|t| - 1];
    }
  }

  /** Concatenating one more part appends exactly that part. */
  lemma {:induction false} ConcatAppend(parts: seq<string>, p: string)
    ensures Concat(parts + [p]) == Concat(parts) + p
    decreases |parts|
  {
    if parts == [] {
      assert [p][1..] == [];
    } else {
      assert (parts + [p])[1..] == parts[1..] + [p];
      ConcatAppend(parts[1..], p);
    }
  }

  /** The concatenation is empty exactly when every part is. */
  lemma {:induction false} ConcatEmptyIff(parts: seq<string>)
    ensures Concat(parts) == [] <==> forall k :: 0 <= k < |parts| ==> parts[k] == []
    decreases |parts|
  {
    if parts != [] {
      ConcatEmptyIff(parts[1..]);
      assert forall k :: 1 <= k < |parts| ==> parts[k] == parts[1..][k - 1];
    }
  }

  /**
   * When every non-empty part starts with `first` and ends with `last`, so
   * does a non-empty concatenation.
   */
  lemma {:induction false} ConcatFramed(parts: seq<string>, first: char, last: char)
    requires forall k :: 0 <= k < |parts| && parts[k] != [] ==> parts[k][0] == first && parts[k][|parts[k]| - 1] == last
    ensures Concat(parts) != [] ==> Concat(parts)[0] == first && Concat(parts)[|Concat(parts)| - 1] == last
    decreases |parts|
  {
    if parts != [] {
      assert forall k :: 1 <= k < |parts| ==> parts[1..][k - 1] == parts[k];
      ConcatFramed(parts[1..], first, last);
    }
  }

  /** Concatenating empty parts gives the empty string. */
  lemma {:induction false} ConcatOfEmpties(parts: seq<string>)
    requires forall k :: 0 <= k < |parts| ==> parts[k] == []
    ensures Concat(parts) == []
    decreases |parts|
  {
    if parts != [] {
      assert forall k :: 0 <= k < |parts[1..]| ==> parts[1..][k] == parts[k + 1];
      ConcatOfEmpties(parts[1..]);
    }
  }
}

=== FILE: ts_codegen.dfy ===
/**
 * The string logic of the TypeScript binding's code generator: stripping and
 * appending the auto-generated tail of a script file, and the enum file and
 * enum import block. File reads and writes are not modelled: each operation
 * maps the file's text to the text written back.
 */
module TsCodeGen {
  import opened Wrappers
  import opened Text

  /** The line that separates hand-written text from generated text. */
  const AutoGenMarker: string := "// AUTO-GENERATED"

  /** What `AppendToTextFile` writes between the old text and the new: a blank line and the marker line. */
  const MarkerBlock: string := "\n\n" + AutoGenMarker + "\n"

  lemma MarkerFacts()
    ensures |AutoGenMarker| == 17 && |MarkerBlock| == 20
    ensures '\n' !in AutoGenMarker && ' ' in AutoGenMarker
    ensures MarkerBlock[..2] == "\n\n" && MarkerBlock[2..19] == AutoGenMarker
  {
    assert AutoGenMarker[2] == ' ';
  }

  /** `s` ends with the two newlines the generator always appends. */
  predicate EndsWithBlankLine(s: string) {
    |s| >= 2 && s[|s| - 2..] == "\n\n"
  }

  /** Where the kept text ends: at the first marker, or at the end when there is none. */
  function KeptEnd(src: string): (end: nat)
    ensures end <= |src|
    ensures Contains(src, AutoGenMarker) ==> OccursAt(src, AutoGenMarker, end)
    ensures Contains(src, AutoGenMarker) ==> forall j: nat :: j < end ==> !OccursAt(src, AutoGenMarker, j)
    ensures !Contains(src, AutoGenMarker) ==> end == |src|
  {
    var found := FindFirst(src, AutoGenMarker);
    if found.Some? then found.value else |src|
  }

  /** The kept text holds no marker. */
  lemma KeptHasNoMarker(src: string)
    ensures !Contains(src[..KeptEnd(src)], AutoGenMarker)
  {
    MarkerFacts();
    var found := FindFirst(src, AutoGenMarker);
    if found.Some? {
      PrefixBeforeFirstHasNone(src, AutoGenMarker, found.value);
    } else {
      assert src[..KeptEnd(src)] == src;
    }
  }

  lemma KeptTextFacts(src: string)
    ensures var body := Trim(src[..KeptEnd(src)]);
            && (body == [] || (!IsTrimChar(body[0]) && !IsTrimChar(body[|body| - 1])))
            && !Contains(body, AutoGenMarker)
            && exists a: nat, b: nat :: a <= b <= KeptEnd(src) && body == src[a..b]
                 && AllTrimChars(src[..a]) && AllTrimChars(src[b..KeptEnd(src)])
  {
    var end := KeptEnd(src);
    var kept := src[..end];
    KeptHasNoMarker(src);
    var body := Trim(kept);
    var a: nat, b: nat :| a <= b <= |kept| && body == kept[a..b] && AllTrimChars(kept[..a]) && AllTrimChars(kept[b..]);
    ContainsOfSlice(kept, a, b, AutoGenMarker);
    SliceOfPrefix(src, end, a, b);
  }

  /** Slices of a prefix are slices of the whole text. */
  lemma SliceOfPrefix(s: string, end: nat, a: nat, b: nat)
    requires a <= b <= end <= |s|
    ensures s[..end][a..b] == s[a..b] && s[..end][..a] == s[..a] && s[..end][b..] == s[b..end]
  {
  }

  /**
   * `RemoveAutoGeneratedCode`: the text before the first marker (all of it
   * when there is none), trimmed of spaces, tabs and line breaks, followed by
   * exactly one blank line.
   */
  function RemoveAutoGeneratedCode(src: string): (r: string)
    ensures EndsWithBlankLine(r)
    ensures var body := r[..|r| - 2];
            && (body == [] || (!IsTrimChar(body[0]) && !IsTrimChar(body[|body| - 1])))
            && !Contains(body, AutoGenMarker)
    ensures exists a: nat, b: nat :: a <= b <= KeptEnd(src) && r[..|r| - 2] == src[a..b]
              && AllTrimChars(src[..a]) && AllTrimChars(src[b..KeptEnd(src)])
  {
    KeptTextFacts(src);
    var body := Trim(src[..KeptEnd(src)]);
    var r := body + "\n\n";
    assert r[..|r| - 2] == body && r[|r| - 2..] == "\n\n";
    r
  }

  /** Behind a marker-free text, the marker the block brings is the first one. */
  lemma AppendedMarkerIsFirst(original: string, tail: string)
    requires !Contains(original, AutoGenMarker)
    ensures FindFirst(original + MarkerBlock + tail, AutoGenMarker) == Some(|original| + 2)
  {
    MarkerFacts();
    var head := original + "\n\n";
    var r := original + MarkerBlock + tail;
    assert r[..|head|] == head;
    assert r[|head|..|head| + 17] == AutoGenMarker;
    NoOccurrenceAcrossForeignTail(original, "\n\n", AutoGenMarker);
    forall j: nat | j < |head| ensures !OccursAt(r, AutoGenMarker, j) {
      if j + 17 <= |head| {
        assert r[j..j + 17] == head[j..j + 17];
        assert !OccursAt(head, AutoGenMarker, j);
      } else {
        NoOccurrenceOver(r, AutoGenMarker, j, |head| - 1);
      }
    }
    FirstOccurrence(r, AutoGenMarker, |head|);
  }

  /** `AppendToTextFile`: the old text, a blank line, the marker line, the new text and a final newline. */
  function AppendToTextFile(original: string, text: string): (r: string)
    ensures |r| == |original| + |text| + 21
    ensures r[..|original|] == original
    ensures r[|original|..|original| + 20] == MarkerBlock
    ensures r[|original| + 20..|r| - 1] == text && r[|r| - 1] == '\n'
    ensures !Contains(original, AutoGenMarker) ==> FindFirst(r, AutoGenMarker) == Some(|original| + 2)
  {
    MarkerFacts();
    var r := original + MarkerBlock + (text + "\n");
    assert r[|original|..|original| + 20] == MarkerBlock;
    assert r[|original| + 20..|r| - 1] == text;
    if Contains(original, AutoGenMarker) then r
    else
      AppendedMarkerIsFirst(original, text + "\n");
      r
  }

  /** A trimmed text without a marker, followed by a blank line, is what stripping produces. */
  lemma RemoveOfStrippedText(body: string)
    requires body == [] || (!IsTrimChar(body[0]) && !IsTrimChar(body[|body| - 1]))
    requires !Contains(body, AutoGenMarker)
    ensures RemoveAutoGeneratedCode(body + "\n\n") == body + "\n\n"
  {
    MarkerFacts();
    var src := body + "\n\n";
    NoOccurrenceAcrossForeignTail(body, "\n\n", AutoGenMarker);
    assert KeptEnd(src) == |src|;
    assert src[..KeptEnd(src)] == src;
    TrimDropsTrimTail(body, "\n\n");
    assert TrimStart(body) == body;
    assert TrimEnd(body) == body;
    assert Trim(src) == body;
  }

  /** Stripping twice strips nothing more: the generator can run on its own output. */
  lemma RemoveIsIdempotent(src: string)
    ensures RemoveAutoGeneratedCode(RemoveAutoGeneratedCode(src)) == RemoveAutoGeneratedCode(src)
  {
    var r := RemoveAutoGeneratedCode(src);
    var body := r[..|r| - 2];
    assert r == body + "\n\n";
    RemoveOfStrippedText(body);
  }

  /**
   * Appending generated text and then stripping it returns the original text,
   * trimmed and followed by one blank line, whenever the original had no marker.
   */
  lemma AppendThenRemove(original: string, text: string)
    requires !Contains(original, AutoGenMarker)
    ensures RemoveAutoGeneratedCode(AppendToTextFile(original, text)) == Trim(original) + "\n\n"
  {
    var appended := AppendToTextFile(original, text);
    assert FindFirst(appended, AutoGenMarker) == Some(|original| + 2);
    assert appended[..|original| + 2] == original + "\n\n";
    TrimDropsTrimTail(original, "\n\n");
  }

  // ---------------------------------------------------------------------------
  // Enums

  /** `ezPropertyCategory`. */
  datatype PropertyCategory = Constant | Member | Function | Array | Set | Map

  /** A reflected property of an enum type; `value` is its constant converted to a 64-bit integer. */
  datatype EnumProperty = EnumProperty(name: string, category: PropertyCategory, value: int)

  /** A required enum type: its reflected name, whether it derives from the enum or bitflags base, its properties. */
  datatype EnumType = EnumType(typeName: string, isEnumOrBitflags: bool, properties: seq<EnumProperty>)

  /** `s` starts with the word `ez` in any letter case. */
  predicate StartsWithEz(s: string) {
    |s| >= 2 && (s[0] == 'e' || s[0] == 'E') && (s[1] == 'z' || s[1] == 'Z')
  }

  /**
   * `TrimWordStart("ez")`: drop one leading word `ez`, compared without
   * regard to case; any other name is kept as it is.
   */
  function StripEzPrefix(name: string): (r: string)
    ensures StartsWithEz(name) ==> |r| == |name| - 2
    ensures !StartsWithEz(name) ==> r == name
  {
    if StartsWithEz(name) then name[2..] else name
  }

  /** Whatever the case of the prefix, stripping gives back the rest, and only one prefix goes. */
  lemma {:induction false} StripEzPrefixRoundTrip(word: string, rest: string)
    requires |word| == 2 && StartsWithEz(word)
    ensures StripEzPrefix(word + rest) == rest
    ensures StartsWithEz(rest) ==> StartsWithEz(StripEzPrefix(word + rest))
  {
    assert (word + rest)[..2] == word;
  }

  /** Every constant of the enum's listed properties names its scope with `::`. */
  predicate ConstantsAreScoped(props: seq<EnumProperty>) {
    forall k :: 0 <= k < |props| && props[k].category == Constant ==> Contains(props[k].name, "::")
  }

  lemma LastSeparatorIsLast(name: string, last: nat)
    requires last + 2 <= |name| && OccursAt(name, "::", last)
    requires forall j: nat :: last < j <= |name| ==> !OccursAt(name, "::", j)
    ensures !Contains(name[last + 2..], "::")
  {
    var r := name[last + 2..];
    assert r == name[last + 2..|name|];
    forall j: nat | j <= |r|
      ensures !OccursAt(r, "::", j)
    {
      OccursAtOfSlice(name, last + 2, |name|, "::", j);
    }
  }

  /** The part of a constant's name after its last `::`. */
  function ConstantSuffix(name: string): (r: string)
    requires Contains(name, "::")
    ensures exists i: nat :: OccursAt(name, "::", i) && r == name[i + 2..] && !Contains(r, "::")
  {
    var last := FindLastFrom(name, "::", |name|);
    assert last.Some?;
    LastSeparatorIsLast(name, last.value);
    name[last.value + 2..]
  }

  /** A property's own entry: ` Suffix = value,` for a constant, nothing otherwise. */
  function ConstantEntry(p: EnumProperty): (r: string)
    requires p.category == Constant ==> Contains(p.name, "::")
    ensures r == [] <==> p.category != Constant
    ensures r != [] ==> r[0] == ' ' && r[|r| - 1] == ','
    ensures p.category == Constant ==>
              exists i: nat :: OccursAt(p.name, "::", i) && !Contains(p.name[i + 2..], "::")
                && r == " " + p.name[i + 2..] + " = " + IntToString(p.value) + ","
  {
    if p.category == Constant then " " + ConstantSuffix(p.name) + " = " + IntToString(p.value) + "," else []
  }

  /** Each property's entry, in input order. */
  function Entries(props: seq<EnumProperty>): (r: seq<string>)
    requires ConstantsAreScoped(props)
  {
    seq(|props|, k requires 0 <= k < |props| => ConstantEntry(props[k]))
  }

  /** The entries ` Suffix = value,` of the constant properties, in order. */
  function ConstantEntries(props: seq<EnumProperty>): (r: string)
    requires ConstantsAreScoped(props)
    ensures r == [] <==> forall k :: 0 <= k < |props| ==> props[k].category != Constant
    ensures r != [] ==> r[0] == ' ' && r[|r| - 1] == ','
  {
    var parts := Entries(props);
    EntriesFacts(props);
    ConcatEmptyIff(parts);
    ConcatFramed(parts, ' ', ',');
    Concat(parts)
  }

  /** An entry is empty exactly for a non-constant, and a non-empty one runs from a space to a comma. */
  lemma EntriesFacts(props: seq<EnumProperty>)
    requires ConstantsAreScoped(props)
    ensures var parts := Entries(props);
            && |parts| == |props|
            && (forall k :: 0 <= k < |parts| ==> (parts[k] == [] <==> props[k].category != Constant))
            && (forall k :: 0 <= k < |parts| && parts[k] != [] ==> parts[k][0] == ' ' && parts[k][|parts[k]| - 1] == ',')
  {
    var parts := Entries(props);
    forall k | 0 <= k < |parts|
      ensures parts[k] == [] <==> props[k].category != Constant
      ensures parts[k] != [] ==> parts[k][0] == ' ' && parts[k][|parts[k]| - 1] == ','
    {
      assert parts[k] == ConstantEntry(props[k]);
    }
  }

  lemma ScopedSnoc(props: seq<EnumProperty>, p: EnumProperty)
    requires ConstantsAreScoped(props) && (p.category == Constant ==> Contains(p.name, "::"))
    ensures ConstantsAreScoped(props + [p])
  {
    assert forall k :: 0 <= k < |props| ==> (props + [p])[k] == props[k];
    assert (props + [p])[|props|] == p;
  }

  /** One more property appends exactly its own entry: the entries keep the input order. */
  lemma ConstantEntriesSnoc(props: seq<EnumProperty>, p: EnumProperty)
    requires ConstantsAreScoped(props) && (p.category == Constant ==> Contains(p.name, "::"))
    ensures ConstantsAreScoped(props + [p])
    ensures ConstantEntries(props + [p]) == ConstantEntries(props) + ConstantEntry(p)
  {
    ScopedSnoc(props, p);
    assert Entries(props + [p]) == Entries(props) + [ConstantEntry(p)];
    ConcatAppend(Entries(props), ConstantEntry(p));
  }

  /** The opening of a declaration: `export enum`, the name without its `ez` prefix, and the brace. */
  function EnumHeader(typeName: string): string {
    "export enum " + StripEzPrefix(typeName) + " {"
  }

  /**
   * One `export enum` declaration: the first property is skipped, the last
   * character of the text built so far is dropped, and ` }` closes it.
   */
  function EnumDeclaration(e: EnumType): (r: string)
    requires |e.properties| > 0 && ConstantsAreScoped(e.properties[1..])
    ensures var header := EnumHeader(e.typeName);
            var entries := ConstantEntries(e.properties[1..]);
            && (entries == [] ==> r == header + " }\n")
            && (entries != [] ==> entries[|entries| - 1] == ',' && r == header + " " + entries[..|entries| - 1] + " }\n")
  {
    CloseDeclaration(EnumHeader(e.typeName), ConstantEntries(e.properties[1..]))
  }

  /** `header + " " + entries` with its last character dropped, then ` }` and a line break. */
  function CloseDeclaration(header: string, entries: string): (r: string)
    ensures entries == [] ==> r == header + " }\n"
    ensures entries != [] ==> r == header + " " + entries[..|entries| - 1] + " }\n"
  {
    var built := header + " " + entries;
    DropLastAfterSpace(header, entries);
    built[..|built| - 1] + " }\n"
  }

  /** The loop's filter: types without properties and types that are neither enums nor bitflags are skipped. */
  predicate IsEmitted(e: EnumType) {
    |e.properties| > 0 && e.isEnumOrBitflags
  }

  /** An emitted type's constants (after the first property) are all scoped. */
  predicate EnumIsScoped(e: EnumType) {
    IsEmitted(e) ==> ConstantsAreScoped(e.properties[1..])
  }

  predicate EnumsAreScoped(enums: seq<EnumType>) {
    forall k :: 0 <= k < |enums| ==> EnumIsScoped(enums[k])
  }

  /** What one type contributes to the file: its declaration, or nothing when it is skipped. */
  function Contribution(e: EnumType): string
    requires EnumIsScoped(e)
  {
    if IsEmitted(e) then EnumDeclaration(e) else []
  }

  /** Each type's contribution, in input order. */
  function Contributions(enums: seq<EnumType>): (r: seq<string>)
    requires EnumsAreScoped(enums)
    ensures |r| == |enums| && forall k :: 0 <= k < |enums| ==> r[k] == Contribution(enums[k])
  {
    seq(|enums|, k requires 0 <= k < |enums| => Contribution(enums[k]))
  }

  /** The declarations of the emitted types, in order. */
  function EnumDeclarations(enums: seq<EnumType>): string
    requires EnumsAreScoped(enums)
  {
    Concat(Contributions(enums))
  }

  const EnumsFileHeader: string := "// AUTO-GENERATED FILE\n\n"

  /** The text `GenerateEnumsFile` writes. */
  function GenerateEnumsFile(enums: seq<EnumType>): (r: string)
    requires EnumsAreScoped(enums)
    ensures |r| >= |EnumsFileHeader| && r[..|EnumsFileHeader|] == EnumsFileHeader
    ensures (forall k :: 0 <= k < |enums| ==> !IsEmitted(enums[k])) ==> r == EnumsFileHeader
  {
    NoEmittedNoDeclarations(enums);
    EnumsFileHeader + EnumDeclarations(enums)
  }

  lemma NoEmittedNoDeclarations(enums: seq<EnumType>)
    requires EnumsAreScoped(enums)
    ensures (forall k :: 0 <= k < |enums| ==> !IsEmitted(enums[k])) ==> EnumDeclarations(enums) == []
  {
    if forall k :: 0 <= k < |enums| ==> !IsEmitted(enums[k]) {
      ConcatOfEmpties(Contributions(enums));
    }
  }

  /**
   * The file grows one declaration per emitted type, in input order: adding a
   * type at the end appends its declaration, or nothing when it is skipped.
   */
  lemma {:induction false} EnumsFileGrowsInOrder(enums: seq<EnumType>, e: EnumType)
    requires EnumsAreScoped(enums) && EnumIsScoped(e)
    ensures EnumsAreScoped(enums + [e])
    ensures GenerateEnumsFile(enums + [e])
              == GenerateEnumsFile(enums) + Contribution(e)
  {
    DeclarationsAppend(enums, e);
  }

  lemma ScopedAppend(enums: seq<EnumType>, e: EnumType)
    requires EnumsAreScoped(enums) && EnumIsScoped(e)
    ensures EnumsAreScoped(enums + [e])
  {
    forall k | 0 <= k < |enums + [e]| ensures EnumIsScoped((enums + [e])[k]) {
      if k < |enums| {
        assert (enums + [e])[k] == enums[k];
      }
    }
  }

  lemma DeclarationsAppend(enums: seq<EnumType>, e: EnumType)
    requires EnumsAreScoped(enums) && EnumIsScoped(e)
    ensures EnumsAreScoped(enums + [e])
    ensures EnumDeclarations(enums + [e])
              == EnumDeclarations(enums) + Contribution(e)
  {
    ScopedAppend(enums, e);
    assert Contributions(enums + [e]) == Contributions(enums) + [Contribution(e)];
    ConcatAppend(Contributions(enums), Contribution(e));
  }

  /** One `export import X = __AllEnums.X;` line per required enum, in order. */
  function EnumExportLines(tsNames: seq<string>): string {
    if tsNames == [] then []
    else "export import " + tsNames[0] + " = __AllEnums." + tsNames[0] + ";\n" + EnumExportLines(tsNames[1..])
  }

  /**
   * `InjectEnumImportExport`: append the import of the enum file and one
   * re-export per required enum (by its script name) under the marker.
   */
  function InjectEnumImportExport(original: string, enumFile: string, tsNames: seq<string>): (r: string)
    ensures var block := "import __AllEnums = require(\"" + enumFile + "\")\n" + EnumExportLines(tsNames);
            && |r| == |original| + |block| + 21
            && r[..|original|] == original
            && r[|original| + 20..|r| - 1] == block
    ensures !Contains(original, AutoGenMarker) ==> FindFirst(r, AutoGenMarker) == Some(|original| + 2)
  {
    AppendToTextFile(original, "import __AllEnums = require(\"" + enumFile + "\")\n" + EnumExportLines(tsNames))
  }

  /** Stripping an injected file gives back the trimmed hand-written part. */
  lemma InjectThenRemove(original: string, enumFile: string, tsNames: seq<string>)
    requires !Contains(original, AutoGenMarker)
    ensures RemoveAutoGeneratedCode(InjectEnumImportExport(original, enumFile, tsNames)) == Trim(original) + "\n\n"
  {
    AppendThenRemove(original, "import __AllEnums = require(\"" + enumFile + "\")\n" + EnumExportLines(tsNames));
  }
}

=== FILE: ts_messages.dfy ===
/**
 * The message side of the TypeScript binding: ordering the reflected message
 * types parents-first, the class text generated for each, the cached
 * hash-to-type lookup, and the defaults used when a script message is turned
 * into an engine message. Reflection data is a registry of type records in
 * the order the engine enumerates them; allocators, Duktape stack access and
 * reflection setters are foreign and appear only as the values they yield.
 */
module TsMessages {
  import opened Wrappers
  import opened Seqs
  import opened Text
  import TsCodeGen

  /** A reflected type: its position in the engine's type enumeration. */
  type TypeId = nat

  /** `ezVariant::Type`: the kinds a reflected member can have. */
  datatype VariantType =
    | Invalid | Bool | String | StringView
    | Int8 | Int16 | Int32 | Int64 | UInt8 | UInt16 | UInt32 | UInt64
    | Float | Double | Vector3 | Quaternion | Color | ColorGamma | Time | Angle
    | Vector2 | Matrix3 | Matrix4 | Uuid | OtherType

  /** The four float components of a colour default, as the float formatter writes them. */
  datatype ColorText = ColorText(r: string, g: string, b: string, a: string)

  /**
   * A member's reflected default: its conversion to text when the variant can
   * be converted, and its colour components when the variant holds a colour.
   */
  datatype DefaultValue = DefaultValue(asString: Option<string>, color: Option<ColorText>)

  /** A reflected property of a message type. `tsType` is `None` when the binding has no script type for it. */
  datatype MessageProperty = MessageProperty(
    name: string,
    category: TsCodeGen.PropertyCategory,
    tsType: Option<string>,
    variantType: VariantType,
    default: DefaultValue)

  /**
   * An `ezRTTI` record: script name, type-name hash (a 32-bit value), parent
   * type, own properties, own and inherited properties, and whether its
   * allocator can create instances.
   */
  datatype Rtti = Rtti(
    tsName: string,
    typeNameHash: nat,
    parent: Option<TypeId>,
    properties: seq<MessageProperty>,
    allProperties: seq<MessageProperty>,
    canAllocate: bool)

  /** All reflected types in enumeration order, and which of them is `ezMessage`. */
  datatype Registry = Registry(types: seq<Rtti>, messageType: TypeId)

  predicate ValidRegistry(reg: Registry) {
    && reg.messageType < |reg.types|
    && forall t :: 0 <= t < |reg.types| && reg.types[t].parent.Some? ==> reg.types[t].parent.value < |reg.types|
  }

  function AllIds(reg: Registry): set<TypeId> {
    Elems(Indices(|reg.types|))
  }

  lemma InAllIds(reg: Registry, t: TypeId)
    requires t < |reg.types|
    ensures t in AllIds(reg)
  {
    assert Indices(|reg.types|)[t] == t;
  }

  // ---------------------------------------------------------------------------
  // Derivation

  /** The parent chain from `t`, not revisiting `seen`, reaches `ezMessage`. */
  predicate DerivesAvoiding(reg: Registry, t: TypeId, seen: set<TypeId>)
    requires ValidRegistry(reg) && t < |reg.types|
    decreases AllIds(reg) - seen
  {
    || t == reg.messageType
    || (t !in seen && reg.types[t].parent.Some?
        && (InAllIds(reg, t); DerivesAvoiding(reg, reg.types[t].parent.value, seen + {t})))
  }

  /** `IsDerivedFrom<ezMessage>()`, which holds for `ezMessage` itself. */
  predicate IsDerivedFromMessage(reg: Registry, t: TypeId)
    requires ValidRegistry(reg) && t < |reg.types|
  {
    DerivesAvoiding(reg, t, {})
  }

  /** A message type the generator emits: derived from `ezMessage` and not `ezMessage` itself. */
  predicate IsProperMessage(reg: Registry, t: TypeId)
    requires ValidRegistry(reg)
  {
    t < |reg.types| && IsDerivedFromMessage(reg, t) && t != reg.messageType
  }

  lemma {:induction false} DerivesAvoidingFewer(reg: Registry, t: TypeId, seen: set<TypeId>, fewer: set<TypeId>)
    requires ValidRegistry(reg) && t < |reg.types|
    requires fewer <= seen && DerivesAvoiding(reg, t, seen)
    ensures DerivesAvoiding(reg, t, fewer)
    decreases AllIds(reg) - seen
  {
    if t != reg.messageType {
      InAllIds(reg, t);
      DerivesAvoidingFewer(reg, reg.types[t].parent.value, seen + {t}, fewer + {t});
    }
  }

  /** A proper message type has a parent, and that parent derives from `ezMessage`. */
  lemma ParentOfProperMessage(reg: Registry, t: TypeId)
    requires ValidRegistry(reg) && IsProperMessage(reg, t)
    ensures reg.types[t].parent.Some? && IsDerivedFromMessage(reg, reg.types[t].parent.value)
  {
    var empty: set<TypeId> := {};
    assert empty + {t} == {t};
    DerivesAvoidingFewer(reg, reg.types[t].parent.value, empty + {t}, empty);
  }

  // ---------------------------------------------------------------------------
  // CreateMessageTypeList

  /** The `found` set and the `sorted` array threaded through the enumeration. */
  datatype TypeList = TypeList(found: set<TypeId>, sorted: seq<TypeId>)

  /**
   * `CreateMessageTypeList` for one type: unless already found, not a
   * message or `ezMessage` itself, mark it found, visit its parent, then
   * append it. Only appends; everything appended is a new proper message type.
   */
  function Visit(reg: Registry, acc: TypeList, t: TypeId): (r: TypeList)
    requires ValidRegistry(reg) && t < |reg.types|
    decreases AllIds(reg) - acc.found
    ensures |acc.sorted| <= |r.sorted| && r.sorted[..|acc.sorted|] == acc.sorted
    ensures r.found == acc.found + Elems(r.sorted[|acc.sorted|..])
    ensures forall x :: x in r.sorted[|acc.sorted|..] ==> x !in acc.found && IsProperMessage(reg, x)
    ensures NoDuplicates(r.sorted[|acc.sorted|..])
    ensures IsProperMessage(reg, t) ==> t in r.found
  {
    if t in acc.found then
      assert acc.sorted[|acc.sorted|..] == [];
      acc
    else if !IsDerivedFromMessage(reg, t) then
      assert acc.sorted[|acc.sorted|..] == [];
      acc
    else if t == reg.messageType then
      assert acc.sorted[|acc.sorted|..] == [];
      acc
    else
      ParentOfProperMessage(reg, t);
      InAllIds(reg, t);
      var inner := Visit(reg, acc.(found := acc.found + {t}), reg.types[t].parent.value);
      var added := inner.sorted[|acc.sorted|..];
      NoDuplicatesAppend(added, [t]);
      var r := inner.(sorted := inner.sorted + [t]);
      assert r.sorted[|acc.sorted|..] == added + [t];
      assert r.sorted[..|acc.sorted|] == inner.sorted[..|acc.sorted|];
      r
  }

  /** `found` is exactly what `sorted` holds, with no repeats and only proper message types. */
  predicate Consistent(reg: Registry, acc: TypeList)
    requires ValidRegistry(reg)
  {
    && acc.found == Elems(acc.sorted)
    && NoDuplicates(acc.sorted)
    && forall x :: x in acc.sorted ==> IsProperMessage(reg, x)
  }

  lemma VisitKeepsConsistent(reg: Registry, acc: TypeList, t: TypeId)
    requires ValidRegistry(reg) && t < |reg.types| && Consistent(reg, acc)
    ensures Consistent(reg, Visit(reg, acc, t))
  {
    var next := Visit(reg, acc, t);
    var added := next.sorted[|acc.sorted|..];
    assert next.sorted == acc.sorted + added;
    NoDuplicatesAppend(acc.sorted, added);
  }

  /** Every proper message type below `i` has been found. */
  predicate FoundBelow(reg: Registry, found: set<TypeId>, i: nat)
    requires ValidRegistry(reg)
  {
    forall t: TypeId :: t < i && IsProperMessage(reg, t) ==> t in found
  }

  /** The enumeration loop: `CreateMessageTypeList` for every type from `i` on. */
  function EnumerateFrom(reg: Registry, acc: TypeList, i: nat): (r: TypeList)
    requires ValidRegistry(reg) && Consistent(reg, acc)
    requires FoundBelow(reg, acc.found, i)
    decreases |reg.types| - i
    ensures Consistent(reg, r)
    ensures forall t: TypeId :: IsProperMessage(reg, t) ==> t in r.found
  {
    if i >= |reg.types| then acc
    else
      VisitKeepsConsistent(reg, acc, i);
      EnumerateFrom(reg, Visit(reg, acc, i), i + 1)
  }

  /** The `sorted` array after enumerating every reflected type. */
  function CreateMessageTypeList(reg: Registry): (sorted: seq<TypeId>)
    requires ValidRegistry(reg)
    ensures NoDuplicates(sorted)
    ensures forall t: TypeId :: t in sorted <==> IsProperMessage(reg, t)
  {
    EnumerateFrom(reg, TypeList({}, []), 0).sorted
  }

  /** A rank that strictly grows from parent to child witnesses an acyclic hierarchy. */
  predicate RankedBy(reg: Registry, rank: seq<nat>) {
    && |rank| == |reg.types|
    && forall t :: 0 <= t < |reg.types| && reg.types[t].parent.Some? && reg.types[t].parent.value < |rank|
         ==> rank[reg.types[t].parent.value] < rank[t]
  }

  /** The class hierarchy has no cycles, as C++ inheritance guarantees. */
  ghost predicate Acyclic(reg: Registry) {
    exists rank :: RankedBy(reg, rank)
  }

  /** The type at position `i` comes after its parent, when that parent is a proper message type. */
  predicate ParentListedBefore(reg: Registry, s: seq<TypeId>, i: nat)
    requires ValidRegistry(reg) && i < |s|
  {
    (s[i] < |reg.types| && reg.types[s[i]].parent.Some? && IsProperMessage(reg, reg.types[s[i]].parent.value))
    ==> reg.types[s[i]].parent.value in s[..i]
  }

  /** Every type whose parent is a proper message type comes after that parent. */
  predicate ParentsFirst(reg: Registry, s: seq<TypeId>)
    requires ValidRegistry(reg)
  {
    forall i: nat :: i < |s| ==> ParentListedBefore(reg, s, i)
  }

  /** `x` ranks strictly above `t`. */
  predicate Deeper(rank: seq<nat>, x: TypeId, t: TypeId) {
    x < |rank| && t < |rank| && rank[x] > rank[t]
  }

  lemma {:induction false} VisitParentsFirst(reg: Registry, acc: TypeList, t: TypeId, rank: seq<nat>)
    requires ValidRegistry(reg) && t < |reg.types| && RankedBy(reg, rank)
    requires ParentsFirst(reg, acc.sorted) && Elems(acc.sorted) <= acc.found
    requires forall x :: x in acc.found ==> x in acc.sorted || Deeper(rank, x, t)
    ensures ParentsFirst(reg, Visit(reg, acc, t).sorted)
    ensures IsProperMessage(reg, t) ==> t in Visit(reg, acc, t).sorted
    decreases AllIds(reg) - acc.found
  {
    if t in acc.found || !IsDerivedFromMessage(reg, t) || t == reg.messageType {
    } else {
      ParentOfProperMessage(reg, t);
      InAllIds(reg, t);
      var p := reg.types[t].parent.value;
      var acc' := acc.(found := acc.found + {t});
      VisitParentsFirst(reg, acc', p, rank);
      var inner := Visit(reg, acc', p);
      assert Visit(reg, acc, t).sorted == inner.sorted + [t];
      ParentsFirstSnoc(reg, inner.sorted, t);
    }
  }

  /** Appending a type whose proper parent is already listed keeps the list parents-first. */
  lemma ParentsFirstSnoc(reg: Registry, s: seq<TypeId>, t: TypeId)
    requires ValidRegistry(reg) && ParentsFirst(reg, s) && t < |reg.types|
    requires (reg.types[t].parent.Some? && IsProperMessage(reg, reg.types[t].parent.value))
             ==> reg.types[t].parent.value in s
    ensures ParentsFirst(reg, s + [t])
  {
    var s' := s + [t];
    forall i: nat | i < |s'| ensures ParentListedBefore(reg, s', i) {
      if i < |s| {
        assert s'[..i] == s[..i] && s'[i] == s[i];
        assert ParentListedBefore(reg, s, i);
      } else {
        assert s'[..i] == s;
      }
    }
  }

  /** One top-level visit keeps the enumeration's invariants and the parents-first order. */
  lemma EnumerateStep(reg: Registry, acc: TypeList, i: nat, rank: seq<nat>)
    requires ValidRegistry(reg) && Consistent(reg, acc) && RankedBy(reg, rank) && i < |reg.types|
    requires FoundBelow(reg, acc.found, i)
    requires ParentsFirst(reg, acc.sorted)
    ensures Consistent(reg, Visit(reg, acc, i)) && ParentsFirst(reg, Visit(reg, acc, i).sorted)
    ensures FoundBelow(reg, Visit(reg, acc, i).found, i + 1)
  {
    VisitKeepsConsistent(reg, acc, i);
    NothingPending(reg, acc, i, rank);
    VisitParentsFirst(reg, acc, i, rank);
  }

  /** Between top-level visits every found type is already listed. */
  lemma NothingPending(reg: Registry, acc: TypeList, t: TypeId, rank: seq<nat>)
    requires acc.found == Elems(acc.sorted)
    ensures Elems(acc.sorted) <= acc.found
    ensures forall x :: x in acc.found ==> x in acc.sorted || Deeper(rank, x, t)
  {
  }

  lemma {:induction false} EnumerateParentsFirst(reg: Registry, acc: TypeList, i: nat, rank: seq<nat>)
    requires ValidRegistry(reg) && Consistent(reg, acc) && RankedBy(reg, rank)
    requires FoundBelow(reg, acc.found, i)
    requires ParentsFirst(reg, acc.sorted)
    ensures ParentsFirst(reg, EnumerateFrom(reg, acc, i).sorted)
    decreases |reg.types| - i
  {
    if i < |reg.types| {
      EnumerateStep(reg, acc, i, rank);
      EnumerateParentsFirst(reg, Visit(reg, acc, i), i + 1, rank);
    }
  }

  /** In an acyclic hierarchy the list names every message type after its parent. */
  lemma TypeListIsParentsFirst(reg: Registry)
    requires ValidRegistry(reg) && Acyclic(reg)
    ensures ParentsFirst(reg, CreateMessageTypeList(reg))
  {
    var rank :| RankedBy(reg, rank);
    EnumerateParentsFirst(reg, TypeList({}, []), 0, rank);
  }

  // ---------------------------------------------------------------------------
  // GenerateMessagePropertiesCode

  /** Only member properties with a script type produce a line. */
  predicate IsEmittedProperty(p: MessageProperty) {
    p.category == TsCodeGen.Member && p.tsType.Some?
  }

  function ColorLiteral(c: ColorText): string {
    "new Color(" + c.r + ", " + c.g + ", " + c.b + ", " + c.a + ")"
  }

  /** One loop iteration: the line written (if any) and the default text carried into the next iteration. */
  datatype PropertyStep = PropertyStep(line: Option<string>, sDefault: string)

  /**
   * One property of `GenerateMessagePropertiesCode`. The default text is only
   * overwritten when the default converts to text, so a property whose
   * default does not convert reuses the previous property's text.
   */
  function PropertyLine(p: MessageProperty, sDefault: string): (r: PropertyStep)
    ensures !IsEmittedProperty(p) ==> r == PropertyStep(None, sDefault)
    ensures IsEmittedProperty(p) ==> r.line.Some?
    ensures IsEmittedProperty(p) ==>
              var head := "  " + p.name + ": " + p.tsType.value;
              && (r.sDefault == [] ==> r.line.value == head + ";\n")
              && (r.sDefault != [] ==> r.line.value == head + " = " + r.sDefault + ";\n")
    ensures IsEmittedProperty(p) && p.default.color.None? ==>
              r.sDefault == (if p.default.asString.Some? then p.default.asString.value else sDefault)
    ensures IsEmittedProperty(p) && p.default.color.Some? ==>
              r.sDefault == (if (if p.default.asString.Some? then p.default.asString.value else sDefault) == [] then []
                             else ColorLiteral(p.default.color.value))
  {
    if !IsEmittedProperty(p) then PropertyStep(None, sDefault)
    else
      var text := if p.default.asString.Some? then p.default.asString.value else sDefault;
      if text == [] then PropertyStep(Some("  " + p.name + ": " + p.tsType.value + ";\n"), text)
      else
        var shown := if p.default.color.Some? then ColorLiteral(p.default.color.value) else text;
        PropertyStep(Some("  " + p.name + ": " + p.tsType.value + " = " + shown + ";\n"), shown)
  }

  function LinesOf(step: PropertyStep): seq<string> {
    if step.line.Some? then [step.line.value] else []
  }

  /** The lines of the property loop and the default text it ends with. */
  datatype PropertyPassResult = PropertyPassResult(lines: seq<string>, sDefault: string)

  function PropertyPass(props: seq<MessageProperty>, sDefault: string): (r: PropertyPassResult)
    ensures |r.lines| <= |props|
  {
    if props == [] then PropertyPassResult([], sDefault)
    else
      var step := PropertyLine(props[0], sDefault);
      var rest := PropertyPass(props[1..], step.sDefault);
      PropertyPassResult(LinesOf(step) + rest.lines, rest.sDefault)
  }

  /**
   * The loop handles properties one at a time in order, carrying the default
   * text over: one more property adds its line with the carried text.
   */
  lemma {:induction false} PropertyPassSnoc(props: seq<MessageProperty>, p: MessageProperty, sDefault: string)
    ensures var before := PropertyPass(props, sDefault);
            var step := PropertyLine(p, before.sDefault);
            PropertyPass(props + [p], sDefault) == PropertyPassResult(before.lines + LinesOf(step), step.sDefault)
    decreases |props|
  {
    if props == [] {
      assert [p][1..] == [];
    } else {
      var step := PropertyLine(props[0], sDefault);
      assert (props + [p])[0] == props[0];
      assert (props + [p])[1..] == props[1..] + [p];
      PropertyPassSnoc(props[1..], p, step.sDefault);
      var before := PropertyPass(props[1..], step.sDefault);
      var last := PropertyLine(p, before.sDefault);
      assert LinesOf(step) + (before.lines + LinesOf(last)) == (LinesOf(step) + before.lines) + LinesOf(last);
    }
  }

  /**
   * A property whose default does not convert to text is written with the
   * text of the member before it, when that one had a plain text default.
   */
  lemma StaleDefaultIsReused(props: seq<MessageProperty>, q: MessageProperty, p: MessageProperty, v: string)
    requires IsEmittedProperty(q) && q.default == DefaultValue(Some(v), None) && v != []
    requires IsEmittedProperty(p) && p.default == DefaultValue(None, None)
    ensures var lines := PropertyPass(props + [q, p], []).lines;
            |lines| > 0 && lines[|lines| - 1] == "  " + p.name + ": " + p.tsType.value + " = " + v + ";\n"
  {
    PropertyPassSnoc(props, q, []);
    assert props + [q, p] == (props + [q]) + [p];
    PropertyPassSnoc(props + [q], p, []);
  }

  /** `GenerateMessagePropertiesCode`: the property lines, starting with an empty default text. */
  function GenerateMessagePropertiesCode(props: seq<MessageProperty>): string {
    Concat(PropertyPass(props, []).lines)
  }

  /**
   * One more property appends exactly its own line (or nothing, when it is
   * not emitted), written with the default text the earlier ones left.
   */
  lemma PropertiesCodeSnoc(props: seq<MessageProperty>, p: MessageProperty)
    ensures var step := PropertyLine(p, PropertyPass(props, []).sDefault);
            GenerateMessagePropertiesCode(props + [p])
              == GenerateMessagePropertiesCode(props) + (if step.line.Some? then step.line.value else [])
  {
    var before := PropertyPass(props, []);
    var step := PropertyLine(p, before.sDefault);
    PropertyPassSnoc(props, p, []);
    if step.line.Some? {
      ConcatAppend(before.lines, step.line.value);
    } else {
      assert before.lines + LinesOf(step) == before.lines;
    }
  }

  // ---------------------------------------------------------------------------
  // GenerateMessageCode

  const ClassKeyword: string := "export class "
  const ExtendsKeyword: string := " extends "
  const ConstructorIntro: string := "{\n  constructor() { super(); this.TypeNameHash = "
  const HashIntro: string := "\n" + ConstructorIntro

  /** The class line, the opening brace and the constructor that stores the type's hash. */
  function ClassHeader(name: string, parentName: string, hash: nat): string {
    ClassKeyword + name + ExtendsKeyword + parentName + HashIntro + NatToString(hash) + "; }\n"
  }

  /** `GenerateMessageCode`: header, property lines, closing brace and a blank line. */
  function GenerateMessageCode(reg: Registry, t: TypeId): (r: string)
    requires ValidRegistry(reg) && t < |reg.types| && reg.types[t].parent.Some?
    ensures var header := ClassHeader(reg.types[t].tsName, reg.types[reg.types[t].parent.value].tsName, reg.types[t].typeNameHash);
            |header| + 3 <= |r| && r[..|header|] == header && r[|r| - 3..] == "}\n\n"
            && r[|header|..|r| - 3] == GenerateMessagePropertiesCode(reg.types[t].properties)
  {
    var header := ClassHeader(reg.types[t].tsName, reg.types[reg.types[t].parent.value].tsName, reg.types[t].typeNameHash);
    var body := GenerateMessagePropertiesCode(reg.types[t].properties);
    var r := header + body + "}\n\n";
    assert r[..|header|] == header && r[|header|..|r| - 3] == body;
    r
  }

  /** What a class header says: the class, its base class and the hash its constructor stores. */
  datatype ClassInfo = ClassInfo(name: string, parentName: string, hash: int)

  /** Reads a generated class back: the partner of `ClassHeader`. */
  function ParseClassHeader(s: string): Option<ClassInfo> {
    if |s| < |ClassKeyword| || s[..|ClassKeyword|] != ClassKeyword then None
    else ParseNamedClass(s[|ClassKeyword|..])
  }

  /** After `export class `: the class name runs up to the first ` extends `. */
  function ParseNamedClass(rest: string): Option<ClassInfo> {
    match FindFirst(rest, ExtendsKeyword)
    case None => None
    case Some(i) => ParseBaseClass(rest[..i], rest[i + |ExtendsKeyword|..])
  }

  /** After ` extends `: the base name runs up to the constructor text. */
  function ParseBaseClass(name: string, after: string): Option<ClassInfo> {
    match FindFirst(after, HashIntro)
    case None => None
    case Some(j) => ParseHash(name, after[..j], after[j + |HashIntro|..])
  }

  /** The hash is the decimal text up to the first `;`. */
  function ParseHash(name: string, parentName: string, digits: string): Option<ClassInfo> {
    match FindFirst(digits, ";")
    case None => None
    case Some(k) => Some(ClassInfo(name, parentName, DecimalValue(digits[..k])))
  }

  lemma DigitsHaveNoSemicolon(d: string)
    requires IsDigits(d)
    ensures ';' !in d
  {
    forall i | 0 <= i < |d| ensures d[i] != ';' {
      assert '0' <= d[i] <= '9';
    }
  }

  lemma ParseHashRoundTrip(name: string, parentName: string, hash: nat, tail: string)
    ensures ParseHash(name, parentName, NatToString(hash) + "; }\n" + tail) == Some(ClassInfo(name, parentName, hash))
  {
    var digits := NatToString(hash);
    DigitsHaveNoSemicolon(digits);
    assert digits + "; }\n" + tail == digits + ("; }\n" + tail);
    FirstAfterForeignPrefix(digits, "; }\n" + tail, ";");
    assert (digits + ("; }\n" + tail))[..|digits|] == digits;
  }

  /** A base name without line breaks is cut exactly where the constructor text starts. */
  lemma ParseBaseClassSplit(name: string, parentName: string, more: string)
    requires '\n' !in parentName
    ensures ParseBaseClass(name, parentName + HashIntro + more) == ParseHash(name, parentName, more)
  {
    var after := parentName + HashIntro + more;
    assert after == parentName + (HashIntro + more);
    assert HashIntro[0] == '\n';
    FirstAfterForeignPrefix(parentName, HashIntro + more, HashIntro);
    assert after[..|parentName|] == parentName;
    assert after[|parentName| + |HashIntro|..] == more;
  }

  lemma ParseBaseClassRoundTrip(name: string, parentName: string, hash: nat, tail: string)
    requires '\n' !in parentName
    ensures ParseBaseClass(name, parentName + HashIntro + NatToString(hash) + "; }\n" + tail)
              == Some(ClassInfo(name, parentName, hash))
  {
    var more := NatToString(hash) + "; }\n" + tail;
    assert parentName + HashIntro + NatToString(hash) + "; }\n" + tail == parentName + HashIntro + more;
    ParseBaseClassSplit(name, parentName, more);
    ParseHashRoundTrip(name, parentName, hash, tail);
  }

  /** A class name without spaces and a base name without line breaks are read back exactly. */
  lemma ClassHeaderRoundTrip(name: string, parentName: string, hash: nat, tail: string)
    requires ' ' !in name && '\n' !in parentName
    ensures ParseClassHeader(ClassHeader(name, parentName, hash) + tail) == Some(ClassInfo(name, parentName, hash))
  {
    var after := parentName + HashIntro + NatToString(hash) + "; }\n" + tail;
    var rest := name + (ExtendsKeyword + after);
    var s := ClassHeader(name, parentName, hash) + tail;
    assert s == ClassKeyword + rest;
    assert s[..|ClassKeyword|] == ClassKeyword;
    assert s[|ClassKeyword|..] == rest;
    assert ExtendsKeyword[0] == ' ';
    FirstAfterForeignPrefix(name, ExtendsKeyword + after, ExtendsKeyword);
    assert rest[..|name|] == name;
    assert rest[|name| + |ExtendsKeyword|..] == after;
    ParseBaseClassRoundTrip(name, parentName, hash, tail);
  }

  /** The generated class for a message type names it, its base type and its hash. */
  lemma MessageCodeNamesTypeAndHash(reg: Registry, t: TypeId)
    requires ValidRegistry(reg) && t < |reg.types| && reg.types[t].parent.Some?
    requires ' ' !in reg.types[t].tsName && '\n' !in reg.types[reg.types[t].parent.value].tsName
    ensures ParseClassHeader(GenerateMessageCode(reg, t))
              == Some(ClassInfo(reg.types[t].tsName, reg.types[reg.types[t].parent.value].tsName, reg.types[t].typeNameHash))
  {
    var header := ClassHeader(reg.types[t].tsName, reg.types[reg.types[t].parent.value].tsName, reg.types[t].typeNameHash);
    var r := GenerateMessageCode(reg, t);
    assert r == header + r[|header|..];
    ClassHeaderRoundTrip(reg.types[t].tsName, reg.types[reg.types[t].parent.value].tsName, reg.types[t].typeNameHash, r[|header|..]);
  }

  /** The class generated for one proper message type. */
  function ClassOf(reg: Registry, t: TypeId): string
    requires ValidRegistry(reg) && IsProperMessage(reg, t)
  {
    ParentOfProperMessage(reg, t);
    GenerateMessageCode(reg, t)
  }

  /** The class of each listed type, one entry per type in list order. */
  function Classes(reg: Registry, sorted: seq<TypeId>): seq<string>
    requires ValidRegistry(reg)
    requires forall x :: x in sorted ==> IsProperMessage(reg, x)
  {
    seq(|sorted|, k requires 0 <= k < |sorted| => ClassOf(reg, sorted[k]))
  }

  /** The classes of the listed types, in list order. */
  function ClassesCode(reg: Registry, sorted: seq<TypeId>): string
    requires ValidRegistry(reg)
    requires forall x :: x in sorted ==> IsProperMessage(reg, x)
  {
    Concat(Classes(reg, sorted))
  }

  /** One more type in the list appends exactly that type's class. */
  lemma ClassesCodeSnoc(reg: Registry, sorted: seq<TypeId>, t: TypeId)
    requires ValidRegistry(reg)
    requires forall x :: x in sorted ==> IsProperMessage(reg, x)
    requires IsProperMessage(reg, t)
    ensures reg.types[t].parent.Some?
    ensures ClassesCode(reg, sorted + [t]) == ClassesCode(reg, sorted) + GenerateMessageCode(reg, t)
  {
    ParentOfProperMessage(reg, t);
    assert Classes(reg, sorted + [t]) == Classes(reg, sorted) + [ClassOf(reg, t)];
    ConcatAppend(Classes(reg, sorted), ClassOf(reg, t));
  }

  /**
   * `GenerateAllMessagesCode`: the code so far is kept, and after it comes one
   * class per proper message type, parents first.
   */
  function GenerateAllMessagesCode(reg: Registry, code: string): (r: string)
    requires ValidRegistry(reg)
    ensures |code| <= |r| && r[..|code|] == code
    ensures r[|code|..] == ClassesCode(reg, CreateMessageTypeList(reg))
  {
    var r := code + ClassesCode(reg, CreateMessageTypeList(reg));
    assert r[..|code|] == code;
    r
  }

  // ---------------------------------------------------------------------------
  // CreateMessage

  /** The first type in enumeration order, from `i` on, whose type-name hash is `hash`. */
  function FindTypeByHash(reg: Registry, hash: nat, i: nat): (r: Option<TypeId>)
    requires i <= |reg.types|
    decreases |reg.types| - i
    ensures r.Some? ==> i <= r.value < |reg.types| && reg.types[r.value].typeNameHash == hash
    ensures r.Some? ==> forall k :: i <= k < r.value ==> reg.types[k].typeNameHash != hash
    ensures r.None? ==> forall k :: i <= k < |reg.types| ==> reg.types[k].typeNameHash != hash
  {
    if i == |reg.types| then None
    else if reg.types[i].typeNameHash == hash then Some(i)
    else FindTypeByHash(reg, hash, i + 1)
  }

  /** Every cached entry names the first type with that hash. */
  predicate CacheValid(reg: Registry, cache: map<nat, TypeId>) {
    forall h :: h in cache ==>
      && cache[h] < |reg.types|
      && reg.types[cache[h]].typeNameHash == h
      && forall k :: 0 <= k < cache[h] ==> reg.types[k].typeNameHash != h
  }

  /** The lookup cache afterwards, the type found (the `pRtti` out-parameter) and the message allocated. */
  datatype Created = Created(cache: map<nat, TypeId>, rtti: Option<TypeId>, message: Option<TypeId>)

  /**
   * `CreateMessage`: the type with the hash, from the cache or by a scan in
   * enumeration order that caches what it finds; a message only when the type
   * exists and its allocator can allocate.
   */
  function CreateMessage(reg: Registry, cache: map<nat, TypeId>, hash: nat): (r: Created)
    requires CacheValid(reg, cache)
    ensures CacheValid(reg, r.cache)
    ensures r.rtti.Some? <==> exists k :: 0 <= k < |reg.types| && reg.types[k].typeNameHash == hash
    ensures r.rtti.Some? ==>
              && r.rtti.value < |reg.types| && reg.types[r.rtti.value].typeNameHash == hash
              && forall k :: 0 <= k < r.rtti.value ==> reg.types[k].typeNameHash != hash
    ensures r.rtti.Some? ==> hash in r.cache && r.cache[hash] == r.rtti.value
    ensures r.rtti.None? ==> r.cache == cache
    ensures forall h :: h in cache ==> h in r.cache && r.cache[h] == cache[h]
    ensures forall h :: h in r.cache ==> h in cache || h == hash
    ensures r.message.Some? <==> r.rtti.Some? && reg.types[r.rtti.value].canAllocate
    ensures r.message.Some? ==> r.message == r.rtti
  {
    var rtti :=
      if hash in cache then Some(cache[hash])
      else FindTypeByHash(reg, hash, 0);
    var cache' := if hash !in cache && rtti.Some? then cache[hash := rtti.value] else cache;
    if rtti.None? || !reg.types[rtti.value].canAllocate then Created(cache', rtti, None)
    else Created(cache', rtti, rtti)
  }

  /** Once a hash has been looked up, looking it up again gives the same type and leaves the cache alone. */
  lemma RepeatedLookupIsStable(reg: Registry, cache: map<nat, TypeId>, hash: nat)
    requires CacheValid(reg, cache)
    ensures var first := CreateMessage(reg, cache, hash);
            var second := CreateMessage(reg, first.cache, hash);
            second.rtti == first.rtti && second.cache == first.cache
  {
    var first := CreateMessage(reg, cache, hash);
    var second := CreateMessage(reg, first.cache, hash);
    if first.rtti.Some? {
      assert reg.types[first.rtti.value].typeNameHash == hash;
      assert reg.types[second.rtti.value].typeNameHash == hash;
    }
    assert second.cache.Keys == first.cache.Keys;
  }

  // ---------------------------------------------------------------------------
  // MessageFromParameter

  /** A property of the script object, as the Duktape helpers read it. */
  datatype ScriptValue =
    | SBool(b: bool)
    | SString(s: string)
    | SInt(i: int)
    | SUInt(n: nat)
    | SNumber(token: nat)
    | SComposite(token: nat)

  type ScriptObject = map<string, ScriptValue>

  /** A script number: either the getter's default 0 or a value read from the script. */
  datatype Number = ZeroNumber | ScriptNumber(token: nat)

  /** The value written into a message member. Composite values come from foreign helpers; `None` is their default. */
  datatype FieldValue =
    | FBool(b: bool)
    | FText(s: string)
    | FInt(i: int)
    | FUInt(n: nat)
    | FNumber(x: Number)
    | FComposite(kind: VariantType, token: Option<nat>)

  datatype Assignment = Assignment(name: string, value: FieldValue)

  /** The member kinds the conversion handles; the others reach `EZ_ASSERT_NOT_IMPLEMENTED`. */
  predicate IsSupported(vt: VariantType) {
    !(vt.Vector2? || vt.Matrix3? || vt.Matrix4? || vt.Uuid? || vt.OtherType?)
  }

  predicate IsSignedInt(vt: VariantType) {
    vt.Int8? || vt.Int16? || vt.Int32? || vt.Int64?
  }

  predicate IsUnsignedInt(vt: VariantType) {
    vt.UInt8? || vt.UInt16? || vt.UInt32? || vt.UInt64?
  }

  predicate IsNumeric(vt: VariantType) {
    vt.Float? || vt.Double? || vt.Time? || vt.Angle?
  }

  predicate IsComposite(vt: VariantType) {
    vt.Vector3? || vt.Quaternion? || vt.Color? || vt.ColorGamma?
  }

  /** What a member of kind `vt` receives when the script object lacks the property: false, "", 0 or the helper's default. */
  function DefaultField(vt: VariantType): FieldValue {
    if vt.Bool? then FBool(false)
    else if vt.String? || vt.StringView? then FText([])
    else if IsSignedInt(vt) then FInt(0)
    else if IsUnsignedInt(vt) then FUInt(0)
    else if IsNumeric(vt) then FNumber(ZeroNumber)
    else FComposite(vt, None)
  }

  /** The script value has the form the getter for `vt` reads. */
  predicate Matches(vt: VariantType, v: ScriptValue) {
    || (vt.Bool? && v.SBool?)
    || ((vt.String? || vt.StringView?) && v.SString?)
    || (IsSignedInt(vt) && v.SInt?)
    || (IsUnsignedInt(vt) && v.SUInt?)
    || (IsNumeric(vt) && v.SNumber?)
    || (IsComposite(vt) && v.SComposite?)
  }

  /** The two values are of the same member kind. */
  predicate SameKind(a: FieldValue, b: FieldValue) {
    || (a.FBool? && b.FBool?) || (a.FText? && b.FText?) || (a.FInt? && b.FInt?)
    || (a.FUInt? && b.FUInt?) || (a.FNumber? && b.FNumber?)
    || (a.FComposite? && b.FComposite? && a.kind == b.kind)
  }

  /** The script value a member value was read from; `None` for the getters' defaults that no script value yields. */
  function ScriptValueOf(v: FieldValue): Option<ScriptValue> {
    match v
    case FBool(b) => Some(SBool(b))
    case FText(s) => Some(SString(s))
    case FInt(i) => Some(SInt(i))
    case FUInt(n) => Some(SUInt(n))
    case FNumber(x) => if x.ScriptNumber? then Some(SNumber(x.token)) else None
    case FComposite(_, token) => if token.Some? then Some(SComposite(token.value)) else None
  }

  /** One `switch` case: read the property named `name` as kind `vt`, falling back to the kind's default. */
  function ReadField(vt: VariantType, script: ScriptObject, name: string): (r: FieldValue)
    requires IsSupported(vt) && !vt.Invalid?
    ensures !(name in script && Matches(vt, script[name])) ==> r == DefaultField(vt)
    ensures SameKind(r, DefaultField(vt))
    ensures name in script && Matches(vt, script[name]) && script[name].SString? ==> r == FText(script[name].s)
    ensures name in script && Matches(vt, script[name]) && script[name].SBool? ==> r == FBool(script[name].b)
    ensures name in script && Matches(vt, script[name]) ==> ScriptValueOf(r) == Some(script[name])
    ensures name in script && Matches(vt, script[name]) && IsComposite(vt) ==> r.FComposite? && r.kind == vt
  {
    if !(name in script && Matches(vt, script[name])) then DefaultField(vt)
    else
      match script[name]
      case SBool(b) => FBool(b)
      case SString(s) => FText(s)
      case SInt(i) => FInt(i)
      case SUInt(n) => FUInt(n)
      case SNumber(token) => FNumber(ScriptNumber(token))
      case SComposite(token) => FComposite(vt, Some(token))
  }

  /** Every member property of the list has a kind the conversion handles. */
  predicate MembersSupported(props: seq<MessageProperty>) {
    forall k :: 0 <= k < |props| && props[k].category == TsCodeGen.Member ==> IsSupported(props[k].variantType)
  }

  /** One iteration of the property loop: members of a valid kind are read, everything else is skipped. */
  function AssignmentFor(p: MessageProperty, script: ScriptObject): Option<Assignment>
    requires p.category == TsCodeGen.Member ==> IsSupported(p.variantType)
  {
    if p.category != TsCodeGen.Member || p.variantType.Invalid? then None
    else Some(Assignment(p.name, ReadField(p.variantType, script, p.name)))
  }

  /** The loop over all properties: one assignment per member property of a valid kind, aligned with the list. */
  function AssignProperties(props: seq<MessageProperty>, script: ScriptObject): (r: seq<Option<Assignment>>)
    requires MembersSupported(props)
    ensures |r| == |props|
    ensures forall k :: 0 <= k < |r| ==>
              (r[k].Some? <==> props[k].category == TsCodeGen.Member && !props[k].variantType.Invalid?)
    ensures forall k :: 0 <= k < |r| && r[k].Some? ==> r[k].value.name == props[k].name
    ensures forall k :: 0 <= k < |r| && r[k].Some? && props[k].name !in script ==>
              r[k].value.value == DefaultField(props[k].variantType)
    ensures forall k :: 0 <= k < |r| && r[k].Some? ==>
              IsSupported(props[k].variantType)
              && r[k].value.value == ReadField(props[k].variantType, script, props[k].name)
  {
    seq(|props|, k requires 0 <= k < |props| => AssignmentFor(props[k], script))
  }

  /** The engine message built from a script message: its type and the member writes, in property order. */
  datatype ScriptMessage = ScriptMessage(cache: map<nat, TypeId>, messageType: TypeId, writes: seq<Option<Assignment>>)

  /**
   * `MessageFromParameter`: create the message for the hash, then assign every
   * member property from the script object. The type is used unchecked, so the
   * hash must name an allocatable type.
   */
  function MessageFromParameter(reg: Registry, cache: map<nat, TypeId>, hash: nat, script: ScriptObject): (r: ScriptMessage)
    requires CacheValid(reg, cache)
    requires FindTypeByHash(reg, hash, 0).Some?
    requires reg.types[FindTypeByHash(reg, hash, 0).value].canAllocate
    requires MembersSupported(reg.types[FindTypeByHash(reg, hash, 0).value].allProperties)
    ensures CacheValid(reg, r.cache) && hash in r.cache && r.cache[hash] == r.messageType
    ensures r.messageType < |reg.types| && reg.types[r.messageType].typeNameHash == hash
    ensures forall k :: 0 <= k < r.messageType ==> reg.types[k].typeNameHash != hash
    ensures |r.writes| == |reg.types[r.messageType].allProperties|
    ensures r.writes == AssignProperties(reg.types[r.messageType].allProperties, script)
  {
    var created := CreateMessage(reg, cache, hash);
    var t := created.rtti.value;
    var first := FindTypeByHash(reg, hash, 0).value;
    assert t == first by {
      assert reg.types[t].typeNameHash == hash;
      assert reg.types[first].typeNameHash == hash;
    }
    ScriptMessage(created.cache, t, AssignProperties(reg.types[t].allProperties, script))
  }

  // ---------------------------------------------------------------------------
  // Unknown and abstract message types

  /**
   * The outcomes of the conversion as written: the message is built, no
   * message results, or a null pointer is dereferenced.
   */
  datatype Conversion =
    | Converted(message: ScriptMessage)
    | NoMessage(cache: map<nat, TypeId>)
    | NullTypeDereference
    | NullMessageWrite

  /** Some property of the list is a member the conversion writes. */
  predicate WritesAMember(props: seq<MessageProperty>) {
    exists k :: 0 <= k < |props| && props[k].category == TsCodeGen.Member && !props[k].variantType.Invalid?
  }

  /**
   * `MessageFromParameter` without assumptions about the hash: the type's
   * properties are read even when no type has the hash, and written into the
   * message even when none could be allocated.
   */
  function MessageFromParameterAsWritten(reg: Registry, cache: map<nat, TypeId>, hash: nat, script: ScriptObject): (r: Conversion)
    requires CacheValid(reg, cache)
    requires FindTypeByHash(reg, hash, 0).Some? ==> MembersSupported(reg.types[FindTypeByHash(reg, hash, 0).value].allProperties)
    ensures r == NullTypeDereference <==> FindTypeByHash(reg, hash, 0).None?
    ensures r.Converted? <==> FindTypeByHash(reg, hash, 0).Some? && reg.types[FindTypeByHash(reg, hash, 0).value].canAllocate
    ensures r == NullMessageWrite <==>
              FindTypeByHash(reg, hash, 0).Some? && !reg.types[FindTypeByHash(reg, hash, 0).value].canAllocate
              && WritesAMember(reg.types[FindTypeByHash(reg, hash, 0).value].allProperties)
  {
    var created := CreateMessage(reg, cache, hash);
    var found := FindTypeByHash(reg, hash, 0);
    if created.rtti.None? then NullTypeDereference
    else
      assert created.rtti.value == found.value by {
        assert reg.types[created.rtti.value].typeNameHash == hash;
        assert reg.types[found.value].typeNameHash == hash;
      }
      if created.message.None? then
        if WritesAMember(reg.types[created.rtti.value].allProperties) then NullMessageWrite else NoMessage(created.cache)
      else Converted(MessageFromParameter(reg, cache, hash, script))
  }

  /** A script that hands over a hash no type has makes the written conversion dereference null. */
  lemma UnknownHashDereferencesNull()
    ensures var reg := Registry([Rtti("Message", 7, None, [], [], false)], 0);
      MessageFromParameterAsWritten(reg, map[], 8, map[]) == NullTypeDereference
  {
    var reg := Registry([Rtti("Message", 7, None, [], [], false)], 0);
    assert FindTypeByHash(reg, 8, 1) == None;
  }

  /**
   * The conversion with both pointers checked: no message when no type has
   * the hash or the type cannot be allocated, else the converted message.
   */
  function ConvertParameter(reg: Registry, cache: map<nat, TypeId>, hash: nat, script: ScriptObject): (r: Conversion)
    requires CacheValid(reg, cache)
    requires FindTypeByHash(reg, hash, 0).Some? ==> MembersSupported(reg.types[FindTypeByHash(reg, hash, 0).value].allProperties)
    ensures r.Converted? || r.NoMessage?
    ensures r.NoMessage? ==> CacheValid(reg, r.cache)
    ensures r.Converted? <==> FindTypeByHash(reg, hash, 0).Some? && reg.types[FindTypeByHash(reg, hash, 0).value].canAllocate
    ensures r.Converted? ==> r.message.messageType < |reg.types| && reg.types[r.message.messageType].typeNameHash == hash
  {
    var created := CreateMessage(reg, cache, hash);
    if created.message.None? then NoMessage(created.cache)
    else
      assert created.rtti.value == FindTypeByHash(reg, hash, 0).value by {
        assert reg.types[created.rtti.value].typeNameHash == hash;
        assert reg.types[FindTypeByHash(reg, hash, 0).value].typeNameHash == hash;
      }
      Converted(MessageFromParameter(reg, cache, hash, script))
  }

  /** Wherever the written conversion does not dereference null, the checked one does the same. */
  lemma ConvertParameterAgreesWhereDefined(reg: Registry, cache: map<nat, TypeId>, hash: nat, script: ScriptObject)
    requires CacheValid(reg, cache)
    requires FindTypeByHash(reg, hash, 0).Some? ==> MembersSupported(reg.types[FindTypeByHash(reg, hash, 0).value].allProperties)
    requires !MessageFromParameterAsWritten(reg, cache, hash, script).NullTypeDereference?
    requires !MessageFromParameterAsWritten(reg, cache, hash, script).NullMessageWrite?
    ensures ConvertParameter(reg, cache, hash, script) == MessageFromParameterAsWritten(reg, cache, hash, script)
  {
  }
}

=== FILE: world.dfy ===
/**
 * The part of `ezWorld` that a game object touches: handle lookups for objects
 * and components, the transformation-data pool, the message queue and the name
 * table. Handle-table internals (generations, slot reuse) are not modelled: a
 * handle either resolves through these maps or it does not.
 */
module Worlds {
  import opened Wrappers

  /** `ezGameObjectHandle`: an opaque (index, generation) pair. */
  datatype ObjectHandle = ObjectHandle(index: nat, generation: nat)

  /** `ezComponentHandle`: an opaque (index, generation) pair. */
  datatype ComponentHandle = ComponentHandle(index: nat, generation: nat)

  /** Storage address of a game object (`ezGameObject*`). Owner back-references are addresses. */
  type Ptr = nat

  /** Storage address of a transformation-data record. */
  type TransformPtr = nat

  /** `MsgRouting` bit flags as the dispatch code reads them; the default has all three clear. */
  datatype MsgRouting = MsgRouting(queued: bool, toParent: bool, toChildren: bool)

  const DefaultRouting := MsgRouting(false, false, false)

  /** A message: an opaque, typed payload. */
  datatype Message = Message(typeId: nat)

  /** An entry of the world's pending-message queue. */
  datatype QueuedMessage = QueuedMessage(msg: Message, routing: MsgRouting, target: ObjectHandle)

  /** Local and global transforms; floating-point data, kept as opaque tokens. */
  datatype TransformPayload = TransformPayload(values: seq<int>)

  /** A transformation-data record with its back-reference to the owning object. */
  datatype TransformationData = TransformationData(payload: TransformPayload, objectPtr: Option<Ptr>)

  /** What the game object reads of a component: its owner back-reference and its classification. */
  datatype Component = Component(owner: Option<Ptr>, isDynamic: bool)

  /** `ezGameObject`: identity, hierarchy links, transform reference and component list. */
  datatype GameObject = GameObject(
    worldId: nat,
    internalId: ObjectHandle,
    isDynamic: bool,
    persistentId: nat,
    parent: ObjectHandle,
    firstChild: ObjectHandle,
    nextSibling: ObjectHandle,
    hierarchyLevel: nat,
    transformIndex: nat,
    transform: TransformPtr,
    components: seq<ComponentHandle>)

  datatype World = World(
    objectTable: map<ObjectHandle, Ptr>,
    objects: map<Ptr, GameObject>,
    components: map<ComponentHandle, Component>,
    transforms: map<TransformPtr, TransformationData>,
    queue: seq<QueuedMessage>,
    names: map<ObjectHandle, string>)

  /** `TryGetObject`: the live object a handle designates, if any. */
  function TryGetObject(w: World, h: ObjectHandle): (r: Option<Ptr>)
    ensures r.Some? <==> h in w.objectTable && w.objectTable[h] in w.objects
    ensures r.Some? ==> r.value in w.objects
  {
    if h in w.objectTable && w.objectTable[h] in w.objects then Some(w.objectTable[h]) else None
  }

  /** `TryGetComponent`: whether a component handle resolves. */
  predicate ResolvesComponent(w: World, c: ComponentHandle) {
    c in w.components
  }

  /** `QueueMessage`: append one entry to the pending queue; nothing else changes. */
  function QueueMessage(w: World, msg: Message, routing: MsgRouting, target: ObjectHandle): (w': World)
    ensures |w'.queue| == |w.queue| + 1
    ensures w'.queue[..|w.queue|] == w.queue
    ensures w'.queue[|w.queue|] == QueuedMessage(msg, routing, target)
    ensures w'.(queue := w.queue) == w
  {
    w.(queue := w.queue + [QueuedMessage(msg, routing, target)])
  }

  /** `SetObjectName`: record a name for a handle. */
  function SetObjectName(w: World, h: ObjectHandle, name: string): World {
    w.(names := w.names[h := name])
  }

  /** `GetObjectName`: the name recorded for a handle, if any. */
  function GetObjectName(w: World, h: ObjectHandle): Option<string> {
    if h in w.names then Some(w.names[h]) else None
  }
}

=== FILE: wrappers.dfy ===
/** Failure-carrying values shared by every module of the model. */
module Wrappers {

  /** A value that may be absent: a null pointer, a handle that does not resolve, a missing key. */
  datatype Option<+T> = None | Some(value: T) {

    /** The wrapped value, or `default` when absent. */
    function GetOr(default: T): T {
      match this
      case Some(v) => v
      case None => default
    }
  }

  /** The engine's two-valued status code (`EZ_SUCCESS` / `EZ_FAILURE`). */
  datatype EzResult = Success | Failure {

    predicate Succeeded() {
      Success?
    }
  }
}
